=== FILE: README.md ===
# Weekly inspection report: records, metrics and export

This project models the engine behind a single-page weekly report tool. The tool
is used for building-inspection work. It keeps two lists in browser storage:

- ongoing inspections: site, project number, bid hours, hours worked, estimated
  completion and notes;
- completed inspections: the same figures, plus a bid price, free-text findings
  and a history of past years.

From these lists it builds:

- the two on-screen tables, with their derived figures and colour classes;
- one spreadsheet per completed inspection, with History, Summary and Notes
  sheets;
- the name of the PDF report.

The model covers:

- the per-row metrics (hourly rate 25, gain/loss, percent difference);
- the colour classes, including the different rules for the current year and
  for history rows;
- storing a form: upsert by id, where a new record gets `prefix + Date.now()`;
- delete-by-id, clearing all data, and promoting an ongoing record to a
  completed one;
- the filter that keeps only complete history rows;
- the two stable display sorts;
- the spreadsheet projection and the file names;
- the date helpers, and JavaScript's `parseFloat`, `Number` and `|| 0` on form
  text.

Every stored figure is the text of a form input, as in script.js. The fixed
captions of the sheets (column headings and row labels) are `Label` cells over a
`Caption` enumeration; `Export.CaptionText` gives their exact texts. The two
number conversions are written out as scanners, with `None` standing for NaN.

Modules, one per file:

- `Wrappers`: `Option`.
- `Numeric`: the number conversions, and decimal printing of whole numbers.
- `Dates`: parsing, printing and the timestamp sort key.
- `Records`: the stored records and the history filter.
- `Metrics`: the formulas and colour classes.
- `Sorting`: a generic stable sort by an integer key, and the proof that its
  result is unique.
- `Repository`: the stored lists and the operations that change them.
- `Tables`: the row order and the contents of each on-screen row.
- `Export`: the spreadsheet cells, sheets and workbooks.
- `FileNames`: the spreadsheet and PDF names.

Behaviours of the code worth noting:

- The display sorts weigh a record without a date as timestamp 0
  (1970-01-01). Its key equals that of 1970-01-01
  (`Dates.MissingDateIsEpoch`), so by `Dates.SortKeyOrder` it exceeds the key
  of every earlier date. The newest-first completed list shows it above every
  earlier-dated record; the soonest-first ongoing list shows it below them.
- In spreadsheet names, each character that is not an ASCII letter or digit is
  replaced by `_` (`FileNames.Sanitize`).
- The History sheet's year column holds the year text as typed.
- The current-year percent divides by `Number(bidHours)`, while the difference
  above it uses `parseFloat(bidHours) || 0`. So a bid such as `"12abc"` gives NaN
  there, while the other figures read it as 12 (`Metrics.CurrentPercent`).
- The Summary's two averages are written as `toFixed(2)` text.

## Model

| member | source | states |
|---|---|---|
| Wrappers.OrElse | script.js:123-125 | `text \|\| fallback` keeps non-empty text, replaces only the empty text by the fallback, and is empty exactly when both are |
| Numeric.DecimalTextRoundTrip | script.js:81-83 | For plain decimal text (optional minus, digits, optional fraction), `parseFloat` and `Number` both read exactly the value the text denotes, and `parseFloat(x) \|\| 0` keeps it |
| Numeric.NatRoundTrip | script.js:212 | A whole number printed in decimal reads back as itself under both conversions |
| Numeric.NatToString | script.js:212 | The printed form of a whole number is a non-empty run of digits with no leading zero whose value is the number; it is one character long exactly when the number is below 10 |
| Numeric.ParsedNonEmpty | script.js:81 | Only non-empty text reads as a number with `parseFloat` |
| Numeric.EmptyIsZero | script.js:81-82 | The empty input is NaN to `parseFloat`, 0 after `\|\| 0`, and 0 to `Number` |
| Numeric.ParseFloat | script.js:81 | `parseFloat` reads a number exactly when a decimal literal starts the text once leading white space is skipped |
| Numeric.TrimStartSuffix | script.js:81 | What is left once the leading white space is skipped is a suffix of the text |
| Numeric.NumberOf | script.js:83 | `Number` reads blank text as 0; with `Numeric.NumberAgreesWithCoerce`, any text it reads as a number gives the same number as `parseFloat(x) \|\| 0` |
| Numeric.Coerce | script.js:81-82 | `parseFloat(x) \|\| 0` is 0 when `parseFloat` reads nothing and otherwise the number it reads; with `Numeric.DecimalTextRoundTrip`, plain decimal text gives back the number it spells |
| Dates.ParseLocalDate | script.js:14-18 | The empty text gives no date. Any other date input gives the date its own `YYYY`, `MM` and `DD` fields name, which is a valid calendar date with a year from 100 to 9999 |
| Dates.FormatDateOfInput | script.js:14-25 | A date input with a year of 1000 or more prints as `MM/DD/YYYY` built from its own month, day and year fields |
| Dates.MdyText | script.js:22-24 | `MM/DD/Y` text holds the zero-padded month and day and the year, each reading back as its value, with slashes at positions 2 and 5 |
| Dates.Pad2OfDigits | script.js:22-23 | Zero-padding the value of two digits gives the two digits back |
| Dates.Pad2 | script.js:22-23 | A value below 100 is printed as exactly two digits that read back as the value; with `Dates.Pad2OfDigits`, padding the value of two digits gives those digits back |
| Dates.FormatDate | script.js:19-25 | No date prints as empty text; otherwise month, day and year are printed as `MM/DD/Y`, with slashes at positions 2 and 5 and each field reading back as its value; the result is 10 characters for a four-digit year |
| Dates.FormatDateStringForInput | script.js:26-34 | Empty stays empty; a `YYYY-MM-DD` date with a year of 1000 or more comes back unchanged |
| Dates.InputRoundTrip | script.js:30-33 | Printing the parsed year, zero-padded month and zero-padded day with dashes rebuilds the input text |
| Dates.ShortYearNotPadded | script.js:30-33 | A year below 1000 is printed without padding, so `0500-03-04` comes back as `500-03-04` |
| Dates.SortKey | script.js:77 | The sort key of a missing date is 0; that of a date is its UTC midnight in epoch milliseconds |
| Dates.SortKeyOrder | script.js:147 | For two dates, the keys are ordered exactly as the calendar days, and equal exactly when the days are |
| Dates.MissingDateIsEpoch | script.js:77 | A missing date ties with 1970-01-01 and sorts after 1969-12-31 |
| Records.CaptureHistory | script.js:183-192 | The saved history rows are exactly the rows with all four inputs filled. Each one is a row of the form, and there are no more of them than there were rows |
| Records.CaptureAppend | script.js:184-191 | The filter distributes over concatenation, so the kept rows keep their form order |
| Records.CaptureIdempotent | script.js:189 | Filtering an already filtered history changes nothing |
| Metrics.PercentFraction | script.js:98 | With a zero bid the difference is 0. Otherwise `bid + bid * f == actual`. With a positive bid it is positive exactly when over bid, and zero exactly when on bid |
| Metrics.ActualPrice | script.js:97 | The labour cost divided by the rate of 25 per hour gives back the actual hours, and it is 0 exactly when no hours were worked |
| Metrics.GainLoss | script.js:81 | Gain/loss equals the bid price exactly when no hours were worked and is below it exactly when hours were worked; `Metrics.BreakEven` gives the break-even point |
| Metrics.BreakEven | script.js:81 | A job gains exactly when its actual hours are below bid price / 25, and breaks even exactly at that point; gain/loss plus actual price is the bid price |
| Metrics.YearFigures | script.js:93-98 | A history year's figures are its three inputs after `parseFloat \|\| 0`, its actual price is 25 per hour, its gain/loss is the bid price less the actual price, and its difference fraction is the shared formula on its bid and actual hours |
| Metrics.CurrentPercent | script.js:82-83 | An empty bid gives 0%, and the percent is NaN exactly when `Number` rejects a non-empty bid text |
| Metrics.PercentOfBid | script.js:83 | The guarded `(diff / bid) * 100` is NaN exactly when the bid is NaN |
| Metrics.PercentOfBidAgrees | script.js:83 | Over a numeric bid and the difference `actual - bid`, the guarded percentage is 100 times the history rows' difference fraction on the same bid and actual hours |
| Metrics.CurrentPercentAt | script.js:82-83 | When `Number` reads the bid text as the bid the difference was taken from, the current-year percent is 100 times the history rows' difference fraction |
| Numeric.NumberAgreesWithCoerce | script.js:81-83 | Whenever `Number` reads a text as a number at all (`.5`, `5.`, `1e1`, `+5`, ` 10 ` alike), `parseFloat(x) \|\| 0` reads it as that same number |
| Numeric.ScanDecimalExtend | script.js:81-83 | Appending text that cannot continue a literal (such as trailing white space) leaves the scanned literal and its value unchanged |
| Metrics.CurrentPercentOfCoerced | script.js:81-98 | When the bid text is empty, or `Number` reads it as a number at all, the current-year percent over the coerced bid is 100 times the history rows' difference fraction on the same coerced bid and actual hours |
| Metrics.ReadAlikePercent | script.js:81-83 | When `Number` and `parseFloat` read the bid text as the same number, `parseFloat(x) \|\| 0` gives that number, and the current-year percent is 100 times the history rows' difference fraction |
| Metrics.CurrentPercentAgrees | script.js:81-83 | Plain decimal bid text is such a text: `parseFloat(x) \|\| 0` gives the value the text denotes, and the current-year percent is the history rows' formula on it |
| Metrics.CurrentPercentEmptyBid | script.js:81-83 | With no bid text the current-year percent is 0, which is also what the history rows' formula gives for the bid 0 that `\|\| 0` yields |
| Metrics.OngoingHoursTone | script.js:150-152 | The hours-worked cell is red exactly when the hours worked exceed the bid, and is never green |
| Metrics.HistoryPercentTone | script.js:104 | A history percent is always coloured, and red exactly when the actual hours are beyond the bid in the bid's direction |
| Metrics.HistoryGainLossTone | script.js:99 | A history gain/loss is always coloured, and green exactly when the actual price is at most the bid price |
| Metrics.CurrentGainLossTone | script.js:85 | The current gain/loss is uncoloured exactly when actual equals bid hours; otherwise it is green exactly when the actual price is below the bid price |
| Metrics.ToneAsymmetry | script.js:85-99 | The two rules disagree: break-even is green for a history year but red for the current year, and a loss on exactly the bid hours is red in history but uncoloured for the current year |
| Sorting.SortBy | script.js:77 | The sort is a permutation, ascending by key, and keeps the elements with each key in their input order |
| Sorting.SortByIsTheStableOrder | script.js:147 | Any ascending arrangement that keeps each key's elements in input order is the sort's result |
| Tables.CompletedOrder | script.js:77 | The completed table holds the same records, latest completion first, with same-day and undated records in stored order |
| Tables.OngoingOrder | script.js:147 | The ongoing table holds the same records, soonest estimated completion first, with ties in stored order |
| Tables.NewestFirstByCalendar | script.js:77 | The completed table lists every record, and no dated record above one completed on a later calendar day |
| Tables.SoonestFirstByCalendar | script.js:147 | The ongoing table lists every record, and no dated record above one due on an earlier calendar day |
| Tables.CompletedOrderUnique | script.js:77 | The completed order is the only newest-first arrangement that keeps same-key records in stored order |
| Tables.OngoingOrderUnique | script.js:147 | The ongoing order is the only soonest-first arrangement that keeps same-key records in stored order |
| Tables.ShownHours | script.js:117 | Empty text shows as 0, and any other text shows as what `parseFloat` reads from it (NaN when it reads nothing) |
| Tables.HistoryLineOf | script.js:92-108 | A history line shows the year text, the coerced figures, actual price 25 per hour, gain/loss as bid price less actual price, and the percent as 100 times the difference fraction. The percent is red exactly when positive; the gain/loss is green exactly when not negative; both always carry a colour |
| Tables.HistoryLines | script.js:87-110 | The history table has one line per saved year, in saved order |
| Tables.CompletedRowOf | script.js:78-126 | A completed row shows the record's site and project, its completion date as `formatDate` prints it (empty exactly when there is none), its bid and actual hours as the table reads them, the coerced bid price, and the actual price at 25 per hour with gain/loss as the rest of the bid price. The gain/loss is uncoloured exactly when the hours match, otherwise green exactly when it gains. The percent is the current-year formula on the record's bid text and coerced hours (0% for an empty bid). The findings texts fall back to `None`, the report flag shows Yes/No, and the history table is the lines of the saved years |
| Tables.CurrentRowPricesMatchHistory | script.js:81-98 | A completed row's bid price, actual price and gain/loss are the ones a history line of the same inputs shows |
| Tables.OngoingRowOf | script.js:148-162 | An ongoing row shows the record's site and project, a notes line holding the notes exactly when there are notes, the bid and worked hours as the table reads them, the estimated completion as `formatDate` prints it, and colours the hours worked red exactly when they exceed the bid |
| Repository.FindIndex | script.js:209 | The result is the first position holding the id, and there is none exactly when no record has the id |
| Repository.Upsert | script.js:208-214 | With no form id, the record is appended under the new id. With an unknown form id, nothing changes. With a known one, the first record with that id gets the form's fields and keeps its id, and nothing else changes |
| Repository.Remove | script.js:252 | The records kept are exactly those whose id differs, and each kept record was in the list |
| Repository.RemoveKeepsIdsUnique | script.js:252 | Deleting an id from a list with unique ids leaves a list with unique ids |
| Repository.RemoveAppend | script.js:323 | Deleting distributes over concatenation, so the kept records keep their order |
| Repository.RemoveAbsent | script.js:323 | Deleting an id no record has changes nothing |
| Repository.RemovePresent | script.js:252 | With unique ids, deleting a present id removes exactly the one record at its position |
| Repository.RemoveOnly | script.js:252 | Deleting the id of the one record that has it leaves exactly the records before and after it, in order |
| Repository.UpsertKeepsIdsUnique | script.js:289-295 | Storing a form keeps ids unique when the new id is fresh |
| Repository.NewIdsDiffer | script.js:212 | Ids made at two different clock readings differ |
| Repository.NewId | script.js:212 | A new id is the prefix followed by digits that read back as the clock reading; with `Repository.NewIdsDiffer`, two clock readings give two ids |
| Repository.SubmitOngoing | script.js:289-295 | Saving the ongoing form is the upsert of the form under `ongo_` and the clock reading: with no form id it appends a new record; with an unknown id nothing changes; with a known id the first record with it gets the form and every other record is unchanged. The other lists are left alone |
| Repository.SubmitCompleted | script.js:178-216 | Saving the completed form is the upsert of the form, with its history filtered to complete rows, under `comp_` and the clock reading: append with no form id, nothing with an unknown id, and otherwise the first record with the id gets the form while every other record is unchanged. The other lists are unchanged |
| Repository.DeleteOngoing | script.js:320-327 | Deleting an ongoing record leaves the ongoing list with the id removed: exactly the other ongoing records, in order, each from the old list. Nothing else is touched |
| Repository.DeleteCompleted | script.js:249-256 | Deleting a completed record leaves the completed list with the id removed: exactly the other completed records, in order, each from the old list. Nothing else is touched |
| Repository.ClearAll | script.js:415-422 | Clearing removes both lists and the notes, but keeps the saved date range |
| Repository.MarkAsComplete | script.js:329-357 | An unknown id does nothing. Otherwise the confirmed store drops the record from the ongoing list. The completed form takes its site, project, bid hours, notes, hours worked as actual hours and today's date, with history cleared; its other fields are left as they were. The form's edit id is cleared, so the next save appends |
| Repository.PromoteThenSave | script.js:347-353 | Confirming removes exactly one ongoing record and leaves the completed list alone; saving the pre-filled form under the cleared edit id then appends it with an empty history under `comp_` and the clock reading, and that id keeps the completed ids unique when no record has it yet |
| FileNames.Sanitize | script.js:595 | Length is kept. Every character becomes `_` exactly when it is not an ASCII letter or digit, and the letters and digits are lower-cased |
| FileNames.SanitizeIdempotent | script.js:595 | Sanitising a sanitised name changes nothing |
| FileNames.SanitizeUntitled | script.js:595 | The stand-in site name `Untitled` sanitises to `untitled` |
| FileNames.SafeFileName | script.js:595 | A missing site name gives `untitled`; a present one is sanitised as it is. The name is never empty and contains only safe characters |
| FileNames.XlsxFileName | script.js:596 | The name is the safe site name, `_`, the project number and `.xlsx` |
| FileNames.PdfFileName | script.js:391-396 | The name starts with `Omni_IT_Report_` and ends with `.pdf`; with no saved week both bounds are `YYYY-MM-DD` |
| FileNames.PdfNameRoundTrip | script.js:394-396 | With ten-character bounds, the start and end can be read back from fixed positions of the name |
| FileNames.PdfNameUnsetStart | script.js:394-396 | An unset start of the week is written as `YYYY-MM-DD`, and the end keeps its place |
| FileNames.PdfNameUnsetEnd | script.js:395 | An unset end of the week is written as `YYYY-MM-DD` |
| FileNames.PdfNameUnsetBoth | script.js:393-396 | A saved week with neither bound set gives the same name as no saved week, `Omni_IT_Report_YYYY-MM-DD_to_YYYY-MM-DD.pdf` |
| Export.HistoryRow | script.js:510-526 | A History row has seven cells: the year text, then six numbers. These are the coerced bid, actual and bid price, the percent as a fraction, the actual price at 25 per hour, and the gain/loss as bid price less actual price |
| Export.HistoryRows | script.js:510-526 | One spreadsheet row per saved year, in saved order, each that year's row; every row has the year text and six numbers |
| Export.RowMatchesScreen | script.js:98 | The exported percent is the on-screen history percent divided by 100, and the other figures agree with the screen |
| Export.HistoryFormats | script.js:532-538 | Formats are set on exactly data rows 1..n of columns D to G: percent on D and currency on E to G |
| Export.HistorySheet | script.js:509-538 | The sheet is the header followed by the data rows, with seven widths. Formats sit only on number cells, on exactly the data rows of columns D to G |
| Export.GainLossTotal | script.js:544 | The total gain/loss is the total bid price less 25 times the total actual hours |
| Export.ColumnSum | script.js:544-547 | The sum of a column over no rows is 0 and over one row is that row's cell; with `Export.ColumnSumBounds` it lies between the row count times any lower and upper bound on the cells, and with `Export.GainLossTotal` the gain/loss total is the bid-price total less 25 times the actual-hours total |
| Export.ColumnSumBounds | script.js:544-547 | A column's sum lies between the row count times a lower and an upper bound on its cells |
| Export.Mean | script.js:545-547 | An average times the row count is the column's sum |
| Export.MaxOf | script.js:548 | `Math.max` is NaN exactly when some argument is NaN; otherwise it is one of the arguments and no argument exceeds it |
| Export.YearValues | script.js:548 | The years are read with `Number` on each row's year text |
| Export.KpisOf | script.js:542-549 | With no history every figure is 0. Otherwise the total gain/loss is the column sum, the averages times the row count are the column sums, and the most recent year is `Math.max` of the years read with `Number` |
| Export.AverageBetween | script.js:545-547 | Each average lies between any lower and upper bounds on its column |
| Export.YearCell | script.js:561 | The most recent year shows `N/A` exactly when it is NaN or 0, and otherwise as that number |
| Export.SummarySheet | script.js:551-567 | The Summary has ten rows: the site label and site name (or N/A), the KPI title, then each figure beside its caption. The two averages are two-decimal text, the average difference a percent-formatted number, the total a currency-formatted number, then the year cell. Blank rows separate the blocks, and the two widths are 35 and 20 |
| Export.EmptyHistorySummary | script.js:543 | An empty history gives zero averages, a zero total and an `N/A` year |
| Export.SingleRowSummary | script.js:542-549 | With one history row the totals and averages are that row's own figures |
| Export.WorkedRow | script.js:510-526 | The year 2023 with bid 10, actual 12 and bid price 500 exports as 2023, 10, 12, 0.2, 500, 300, 200 |
| Export.WorkedSummary | script.js:542-549 | That one-year history summarises as total 200, averages 10 and 12, difference 0.2, year 2023 |
| Export.YearZeroIsNA | script.js:561 | A single history row whose year text is `0` shows `N/A` as the most recent year |
| Export.NotesSheet | script.js:571-585 | The Notes sheet has eleven rows. The completion date, deficiencies and Yes/No report flag each sit beside their caption. The discrepancies sit under the field-notes caption and the notes under the quote-notes caption. There is one width of 80 and no formats |
| Export.BuildWorkbook | script.js:569-596 | A workbook is the History and Summary sheets of the record's history and its Notes sheet, under the sanitised spreadsheet name. The Notes sheet prints the completion date as the completed table shows it, empty exactly when the record has none |
| Export.ExportAll | script.js:469-500 | Nothing is exported exactly when there are no completed records; otherwise there is one workbook per record, in stored order, each named after that record and holding the History and Summary sheets of its history and a Notes sheet whose date is the one the completed table shows |

## Left out

- The DOM, the modal dialogs and their confirm callbacks are left out. An operation that script.js runs after a confirmation is modelled as its confirmed outcome.
- Browser storage and JSON are left out. The store is a value, and a missing key reads as the empty list. An array property set at index -1 is dropped when the list is written back, so an unknown edit id is modelled as "nothing changes".
- The edit handlers (`editCompletedItem`, `editOngoingItem`) only fill the forms. They are form flow, not data logic.
- The clock is a parameter. `Date.now()` is `now`, and today's `YYYY-MM-DD` is `today`.
- The html2pdf and SheetJS calls are left out. The model builds the cells, formats and widths handed to them, not the library objects.
- IEEE double arithmetic is left out: all arithmetic is exact over the reals. So `toFixed` rounding is not modelled; table rows hold exact rational figures, and the Summary's two text averages are `Fixed(value, 2)` cells. A literal too large for a double (`1e400`), which JavaScript reads as `Infinity`, is read here as the finite number it spells.
- Numeric.NumberOf leaves out `Infinity` and the hexadecimal, octal and binary forms. Its contract states only the empty-text case; its agreement with `parseFloat` is stated by `Numeric.NumberAgreesWithCoerce` and `Numeric.DecimalTextRoundTrip`.
- Numeric.ParseFloat leaves out `Infinity`, which JavaScript's `parseFloat` reads as a number; here such text reads as NaN.
- Dates.ParseLocalDate: `Date.UTC` normalisation of out-of-range fields and its 0–99 year mapping are excluded. Date inputs are the empty text or a valid `YYYY-MM-DD` with a year of at least 100.
- The parenthesised class on the current-year percent span (line 118) produces no colour rule, so no tone is modelled for it.
- FileNames.Sanitize works on characters, not UTF-16 code units. A character outside the Basic Multilingual Plane becomes one `_` here, but two in script.js.
- Saving the report notes and the date range (`saveNotes`, `updateDateRange`) only writes form text to storage and is left out. The range shown on the page is left out too. The store holds both as values, and `ClearAll` and `PdfFileName` read them.
- Whole-table row lists are left out. The table's order (`Tables.CompletedOrder`, `Tables.OngoingOrder`) and the row of each record (`Tables.CompletedRowOf`, `Tables.OngoingRowOf`) give each table row by row.
- The MutationObserver and the PDF render mode only change the page's appearance. They are left out.

=== FILE: dates.dfy ===
/** Date strings as the report handles them.

    Date inputs hold `YYYY-MM-DD` text or nothing. `parseLocalDate` reads such text
    as midnight UTC of that day (`Date.UTC`), `formatDate` prints a day as
    `MM/DD/YYYY`, and `formatDateStringForInput` prints it back as `YYYY-MM-DD`.
    The display sorts compare the millisecond timestamps of the parsed days, with
    0 standing in for a missing date. */
module Dates {
  import opened Wrappers
  import opened Numeric

  datatype CalDate = CalDate(year: int, month: int, day: int)

  predicate IsLeap(y: int) {
    y % 4 == 0 && (y % 100 != 0 || y % 400 == 0)
  }

  function DaysInMonth(y: int, m: int): int
    requires 1 <= m <= 12
  {
    if m == 2 then (if IsLeap(y) then 29 else 28)
    else if m == 4 || m == 6 || m == 9 || m == 11 then 30
    else 31
  }

  function DaysInYear(y: int): int {
    if IsLeap(y) then 366 else 365
  }

  predicate ValidDate(d: CalDate) {
    1 <= d.month <= 12 && 1 <= d.day <= DaysInMonth(d.year, d.month)
  }

  /** The text shape `YYYY-MM-DD`: four, two and two digits separated by dashes. */
  predicate IsoShape(s: string) {
    |s| == 10 && s[4] == '-' && s[7] == '-'
    && AllDigits(s[0..4]) && AllDigits(s[5..7]) && AllDigits(s[8..10])
  }

  /** The year, month and day numbers of `YYYY-MM-DD` text, each field read as
      a decimal number. */
  function IsoFields(s: string): CalDate
    requires IsoShape(s)
  {
    CalDate(DigitsValue(s[0..4]), DigitsValue(s[5..7]), DigitsValue(s[8..10]))
  }

  /** What a date field may hold in this model: nothing, or `YYYY-MM-DD` naming a
      real calendar day. Years below 100 are left out because `Date.UTC` reads
      them as 1900-1999; out-of-range months and days are left out because
      `Date.UTC` silently rolls them over into neighbouring months. */
  predicate DateInput(s: string) {
    s == [] || (IsoShape(s) && ValidDate(IsoFields(s)) && IsoFields(s).year >= 100)
  }

  /** `parseLocalDate`: null for the empty text, otherwise the day it names. */
  function ParseLocalDate(s: string): (r: Option<CalDate>)
    requires DateInput(s)
    ensures r.None? <==> s == []
    ensures r.Some? ==> ValidDate(r.value) && 100 <= r.value.year <= 9999
    ensures s != [] ==> r == Some(IsoFields(s))
  {
    if s == [] then None else Digits4(s[0..4]); Some(IsoFields(s))
  }

  // ---------------------------------------------------------------------------
  // Printing

  /** Two-digit padding: the last two characters of `n` printed after a leading
      zero. */
  function Pad2(n: nat): (r: string)
    ensures n < 100 ==> |r| == 2 && AllDigits(r) && DigitsValue(r) == n
  {
    var t := "0" + NatToString(n);
    if n < 10 then
      assert t == "0" + [DigitChar(n)];
      DigitsValueSnoc("0", DigitChar(n));
      t[|t| - 2..]
    else
      t[|t| - 2..]
  }

  lemma Digits2(t: string)
    requires |t| == 2 && AllDigits(t)
    ensures DigitsValue(t) == 10 * DigitValue(t[0]) + DigitValue(t[1])
  {
    var t1 := t[..1];
    assert t1[..0] == [] && t1[0] == t[0];
    assert DigitsValue(t1) == DigitValue(t[0]);
  }

  lemma Digits4(t: string)
    requires |t| == 4 && AllDigits(t)
    ensures DigitsValue(t) == 1000 * DigitValue(t[0]) + 100 * DigitValue(t[1]) + 10 * DigitValue(t[2]) + DigitValue(t[3])
  {
    var t3 := t[..3];
    var t2 := t3[..2];
    var t1 := t2[..1];
    assert t1[..0] == [];
    assert DigitsValue(t1) == DigitValue(t[0]);
    assert DigitsValue(t2) == 10 * DigitValue(t[0]) + DigitValue(t[1]);
  }

  lemma Pad2LeadingZero(t: string)
    requires |t| == 2 && AllDigits(t) && t[0] == '0'
    ensures Pad2(DigitsValue(t)) == t
  {
    Digits2(t);
    var v := DigitsValue(t);
    assert v == DigitValue(t[1]) && v < 10;
    var p := "0" + [DigitChar(v)];
    assert NatToString(v) == [DigitChar(v)];
    assert Pad2(v) == p[|p| - 2..] && p[|p| - 2..] == p;
    assert DigitChar(v) == t[1];
    assert p == t;
  }

  lemma Pad2TwoDigits(t: string)
    requires |t| == 2 && AllDigits(t) && t[0] != '0'
    ensures Pad2(DigitsValue(t)) == t
  {
    Digits2(t);
    var v := DigitsValue(t);
    assert v >= 10;
    NatToStringOfDigits(t);
    var p := "0" + t;
    assert Pad2(v) == p[|p| - 2..];
    assert p[|p| - 2..] == t;
  }

  /** Padding two digits' value gives the two digits back. */
  lemma Pad2OfDigits(t: string)
    requires |t| == 2 && AllDigits(t)
    ensures Pad2(DigitsValue(t)) == t
  {
    if t[0] == '0' {
      Pad2LeadingZero(t);
    } else {
      Pad2TwoDigits(t);
    }
  }

  /** `formatDate(d)`: `MM/DD/YYYY` for a day, the empty text for none. The month
      and day are zero-padded to two digits; the year is printed as it is. */
  function FormatDate(p: Option<CalDate>): (r: string)
    requires p.Some? ==> ValidDate(p.value) && p.value.year >= 0
    ensures p.None? ==> r == []
    ensures p.Some? ==> |r| == 6 + |NatToString(p.value.year)| && r[2] == '/' && r[5] == '/'
    ensures p.Some? ==> AllDigits(r[0..2]) && DigitsValue(r[0..2]) == p.value.month
    ensures p.Some? ==> AllDigits(r[3..5]) && DigitsValue(r[3..5]) == p.value.day
    ensures p.Some? ==> AllDigits(r[6..]) && DigitsValue(r[6..]) == p.value.year
    ensures p.Some? && 1000 <= p.value.year <= 9999 ==> |r| == 10
  {
    match p
    case None => []
    case Some(d) =>
      if 1000 <= d.year <= 9999 then
        YearDigits(d.year as nat);
        MdyText(d.month as nat, d.day as nat, d.year as nat)
      else
        MdyText(d.month as nat, d.day as nat, d.year as nat)
  }

  /** `MM/DD/YYYY` from its three numbers. */
  function MdyText(month: nat, day: nat, year: nat): (r: string)
    requires month < 100 && day < 100
    ensures |r| == 6 + |NatToString(year)| && r[2] == '/' && r[5] == '/'
    ensures AllDigits(r[0..2]) && DigitsValue(r[0..2]) == month
    ensures AllDigits(r[3..5]) && DigitsValue(r[3..5]) == day
    ensures AllDigits(r[6..]) && DigitsValue(r[6..]) == year
  {
    var m, d, y := Pad2(month), Pad2(day), NatToString(year);
    MdyParts(m, d, y);
    m + "/" + d + "/" + y
  }


  lemma MdyParts(m: string, d: string, y: string)
    requires |m| == 2 && |d| == 2
    ensures (m + "/" + d + "/" + y)[0..2] == m
    ensures (m + "/" + d + "/" + y)[3..5] == d
    ensures (m + "/" + d + "/" + y)[6..] == y
    ensures (m + "/" + d + "/" + y)[2] == '/' && (m + "/" + d + "/" + y)[5] == '/'
  {
  }

  /** Four-digit years print as four digits. */
  lemma {:induction false} YearDigits(y: nat)
    requires 1000 <= y <= 9999
    ensures |NatToString(y)| == 4
  {
    var a, b, c := y / 10, y / 100, y / 1000;
    assert a / 10 == b && b / 10 == c;
    assert 1 <= c < 10 && 10 <= b && 100 <= a;
    assert |NatToString(c)| == 1;
    assert NatToString(b) == NatToString(c) + [DigitChar(b % 10)];
    assert NatToString(a) == NatToString(b) + [DigitChar(a % 10)];
    assert NatToString(y) == NatToString(a) + [DigitChar(y % 10)];
  }

  /** A `YYYY-MM-DD` text is its three fields joined by dashes. */
  lemma IsoSplit(s: string)
    requires |s| == 10 && s[4] == '-' && s[7] == '-'
    ensures s == s[0..4] + "-" + s[5..7] + "-" + s[8..10]
  {
  }

  /** `formatDateStringForInput`: the empty text for the empty text, otherwise the
      parsed day printed back as year, two-digit month and two-digit day. */
  function FormatDateStringForInput(s: string): (r: string)
    requires DateInput(s)
    ensures s == [] ==> r == []
    ensures s != [] && IsoFields(s).year >= 1000 ==> r == s
  {
    if s == [] then
      []
    else
      var d := ParseLocalDate(s).value;
      var r := NatToString(d.year as nat) + "-" + Pad2(d.month as nat) + "-" + Pad2(d.day as nat);
      if d.year >= 1000 then
        InputRoundTrip(s);
        r
      else
        r
  }

  lemma InputRoundTrip(s: string)
    requires IsoShape(s) && IsoFields(s).year >= 1000
    ensures NatToString(IsoFields(s).year as nat) + "-" + Pad2(IsoFields(s).month as nat) + "-" + Pad2(IsoFields(s).day as nat) == s
  {
    var y := s[0..4];
    Digits4(y);
    assert y[0] != '0';
    NatToStringOfDigits(y);
    Pad2OfDigits(s[5..7]);
    Pad2OfDigits(s[8..10]);
    IsoSplit(s);
  }

  /** A date input with a four-digit year is shown as `MM/DD/YYYY`: its own
      month, day and year fields, rearranged around slashes. */
  lemma FormatDateOfInput(s: string)
    requires DateInput(s) && s != [] && IsoFields(s).year >= 1000
    ensures FormatDate(ParseLocalDate(s)) == s[5..7] + "/" + s[8..10] + "/" + s[0..4]
  {
    var y := s[0..4];
    Digits4(y);
    assert y[0] != '0';
    NatToStringOfDigits(y);
    Pad2OfDigits(s[5..7]);
    Pad2OfDigits(s[8..10]);
  }

  /** Years below 1000 are not padded, so such a day does not print back as the
      text it was read from. */
  lemma ShortYearNotPadded()
    ensures DateInput("0500-03-04")
    ensures FormatDateStringForInput("0500-03-04") == "500-03-04"
  {
    var s := "0500-03-04";
    assert IsoShape(s);
    Digits4(s[0..4]);
    Digits2(s[5..7]);
    Digits2(s[8..10]);
    assert IsoFields(s) == CalDate(500, 3, 4);
    assert NatToString(500) == "500" by {
      assert NatToString(5) == "5";
      assert NatToString(50) == "50";
    }
    assert Pad2(3) == "03";
    assert Pad2(4) == "04";
  }

  // ---------------------------------------------------------------------------
  // Timestamps

  /** Leap years strictly before year `y` of the proleptic Gregorian calendar,
      counted from year 1. */
  function LeapsBefore(y: int): int {
    (y - 1) / 4 - (y - 1) / 100 + (y - 1) / 400
  }

  function DaysBeforeYear(y: int): int {
    365 * y + LeapsBefore(y)
  }

  function DaysBeforeMonth(y: int, m: int): int
    requires 1 <= m <= 12
  {
    var common :=
      if m == 1 then 0 else if m == 2 then 31 else if m == 3 then 59
      else if m == 4 then 90 else if m == 5 then 120 else if m == 6 then 151
      else if m == 7 then 181 else if m == 8 then 212 else if m == 9 then 243
      else if m == 10 then 273 else if m == 11 then 304 else 334;
    if m > 2 && IsLeap(y) then common + 1 else common
  }

  /** Days from 1970-01-01 to the given day. */
  function DayNumber(d: CalDate): int
    requires ValidDate(d)
  {
    DaysBeforeYear(d.year) - DaysBeforeYear(1970) + DaysBeforeMonth(d.year, d.month) + d.day - 1
  }

  const MillisPerDay: int := 86_400_000

  /** The timestamp `Date.UTC` gives midnight of the day. */
  function EpochMillis(d: CalDate): int
    requires ValidDate(d)
  {
    DayNumber(d) * MillisPerDay
  }

  /** `parseLocalDate(s) || 0` as the sort comparators use it: the day's
      timestamp, or 0 when the text is empty. */
  function SortKey(s: string): (k: int)
    requires DateInput(s)
    ensures s == [] ==> k == 0
    ensures s != [] ==> k == EpochMillis(IsoFields(s))
  {
    match ParseLocalDate(s)
    case None => 0
    case Some(d) => EpochMillis(d)
  }

  /** Calendar order of days. */
  predicate Before(a: CalDate, b: CalDate) {
    a.year < b.year || (a.year == b.year && (a.month < b.month || (a.month == b.month && a.day < b.day)))
  }

  lemma StepDiv(y: int)
    ensures y / 4 - (y - 1) / 4 == (if y % 4 == 0 then 1 else 0)
    ensures y / 100 - (y - 1) / 100 == (if y % 100 == 0 then 1 else 0)
    ensures y / 400 - (y - 1) / 400 == (if y % 400 == 0 then 1 else 0)
  {
  }

  /** Consecutive year starts are a year's length apart. */
  lemma YearLength(y: int)
    ensures DaysBeforeYear(y + 1) - DaysBeforeYear(y) == DaysInYear(y)
  {
    StepDiv(y);
    assert y % 400 == 0 ==> y % 100 == 0;
    assert y % 100 == 0 ==> y % 4 == 0;
  }

  lemma {:induction false} YearStartsIncrease(a: int, b: int)
    requires a <= b
    ensures DaysBeforeYear(a) + 365 * (b - a) <= DaysBeforeYear(b)
    decreases b - a
  {
    if a < b {
      YearLength(a);
      YearStartsIncrease(a + 1, b);
    }
  }

  lemma DayOfYearBounds(d: CalDate)
    requires ValidDate(d)
    ensures 0 <= DaysBeforeMonth(d.year, d.month) + d.day - 1 < DaysInYear(d.year)
  {
  }

  lemma MonthStartsIncrease(y: int, m1: int, m2: int)
    requires 1 <= m1 < m2 <= 12
    ensures DaysBeforeMonth(y, m1) + DaysInMonth(y, m1) <= DaysBeforeMonth(y, m2)
  {
  }

  /** Earlier days have smaller timestamps. */
  lemma DayNumberIncreasing(a: CalDate, b: CalDate)
    requires ValidDate(a) && ValidDate(b) && Before(a, b)
    ensures DayNumber(a) < DayNumber(b)
  {
    DayOfYearBounds(a);
    DayOfYearBounds(b);
    if a.year < b.year {
      YearLength(a.year);
      YearStartsIncrease(a.year + 1, b.year);
    } else if a.month < b.month {
      MonthStartsIncrease(a.year, a.month, b.month);
    }
  }

  /** The sort key orders days exactly as the calendar does, and tells different
      days apart. */
  lemma SortKeyOrder(s: string, t: string)
    requires DateInput(s) && DateInput(t) && s != [] && t != []
    ensures SortKey(s) < SortKey(t) <==> Before(IsoFields(s), IsoFields(t))
    ensures SortKey(s) == SortKey(t) <==> IsoFields(s) == IsoFields(t)
  {
    var a, b := IsoFields(s), IsoFields(t);
    if Before(a, b) {
      DayNumberIncreasing(a, b);
    } else if Before(b, a) {
      DayNumberIncreasing(b, a);
    }
  }

  /** A missing date weighs the same as 1970-01-01, so it sorts after every
      earlier day rather than before all of them. */
  lemma MissingDateIsEpoch()
    ensures DateInput("1970-01-01") && SortKey("1970-01-01") == SortKey("")
    ensures DateInput("1969-12-31") && SortKey("1969-12-31") < SortKey("")
  {
    var e := "1970-01-01";
    var p := "1969-12-31";
    assert IsoShape(e) && IsoShape(p);
    Digits4(e[0..4]);
    Digits2(e[5..7]);
    Digits2(e[8..10]);
    Digits4(p[0..4]);
    Digits2(p[5..7]);
    Digits2(p[8..10]);
    assert IsoFields(e) == CalDate(1970, 1, 1);
    assert IsoFields(p) == CalDate(1969, 12, 31);
    YearLength(1969);
  }
}

=== FILE: export.dfy ===
/** The spreadsheet export: one workbook per completed record, with a History
    sheet (one row per saved history year), a Summary sheet (figures aggregated
    over those rows) and a Notes sheet.

    A sheet is its grid of cells, the number formats attached to cells by
    (row, column) position counted from 0, and its column widths in characters.
    The spreadsheet library that lays these out and writes the file is not part
    of this model. */
module Export {
  import opened Wrappers
  import opened Numeric
  import opened Dates
  import opened Records
  import opened Metrics
  import opened Tables
  import opened FileNames

  /** A cell: text, one of the sheets' fixed captions, a number, or the text
      `toFixed(digits)` prints for a number. */
  datatype Cell = Text(text: string) | Label(caption: Caption) | Number(value: real) | Fixed(amount: real, digits: nat)

  /** The fixed texts the sheets are laid out with. */
  datatype Caption =
    | YearHeading | BidHoursHeading | ActualHoursHeading | DiffHeading
    | BidPriceHeading | ActualPriceHeading | GainLossHeading
    | SiteLabel | KpiTitle | AvgBidLabel | AvgActualLabel | AvgDiffLabel | TotalLabel | RecentYearLabel
    | NotesTitle | NotesIntro | DateLabel | DeficienciesLabel | ReportSentLabel | FieldNotesLabel | QuoteNotesLabel

  function CaptionText(c: Caption): string {
    match c
    case YearHeading => "Year"
    case BidHoursHeading => "Bid Hours"
    case ActualHoursHeading => "Actual Hours"
    case DiffHeading => "% Diff"
    case BidPriceHeading => "Bid Price ($)"
    case ActualPriceHeading => "Actual Price ($)"
    case GainLossHeading => "Gain/Loss ($)"
    case SiteLabel => "Company/Site:"
    case KpiTitle => "KPIs (auto-calculated from History)"
    case AvgBidLabel => "Average Bid Hours"
    case AvgActualLabel => "Average Actual Hours"
    case AvgDiffLabel => "Average % Difference"
    case TotalLabel => "Total Gain/Loss ($)"
    case RecentYearLabel => "Most Recent Year"
    case NotesTitle => "Inspector Notes (free text)"
    case NotesIntro => "Use this sheet to capture context from each inspection (mirrors the PDF fields):"
    case DateLabel => "- Date Completed:"
    case DeficienciesLabel => "- Deficiencies Found:"
    case ReportSentLabel => "- Report Sent (Yes/No):"
    case FieldNotesLabel => "- Field Notes (access issues, special equipment, returns needed, etc.):"
    case QuoteNotesLabel => "- Contract/Quote Notes for Marty:"
  }

  datatype NumFormat = Percent | Currency

  /** The format codes the sheets use. */
  function FormatCode(f: NumFormat): string {
    match f
    case Percent => "0.0%"
    case Currency => "\"$\"#,##0.00"
  }

  type Row = seq<Cell>

  datatype Sheet = Sheet(name: string, rows: seq<Row>, formats: map<(nat, nat), NumFormat>, widths: seq<nat>)

  /** Every formatted position holds a number cell. */
  predicate FormatsOnNumbers(sh: Sheet) {
    forall p | p in sh.formats :: p.0 < |sh.rows| && p.1 < |sh.rows[p.0]| && sh.rows[p.0][p.1].Number?
  }

  // ---------------------------------------------------------------------------
  // History sheet

  const HistoryHeader: Row := [
    Label(YearHeading), Label(BidHoursHeading), Label(ActualHoursHeading), Label(DiffHeading),
    Label(BidPriceHeading), Label(ActualPriceHeading), Label(GainLossHeading)]

  /** The columns of a history row, counted from 0 (A). */
  const YearCol: nat := 0
  const BidCol: nat := 1
  const ActualCol: nat := 2
  const PercentCol: nat := 3
  const BidPriceCol: nat := 4
  const ActualPriceCol: nat := 5
  const GainLossCol: nat := 6

  /** One history year as a spreadsheet row: the year as it was typed, then six
      numbers, the variance kept as a fraction for the percent format. */
  function HistoryRow(h: HistoryEntry): (row: Row)
    ensures |row| == 7 && row[YearCol] == Text(h.year)
    ensures forall c | BidCol <= c <= GainLossCol :: row[c].Number?
    ensures row[BidCol].value == Coerce(h.bid) && row[ActualCol].value == Coerce(h.actual)
    ensures row[BidPriceCol].value == Coerce(h.bidPrice)
    ensures row[PercentCol].value == PercentFraction(row[BidCol].value, row[ActualCol].value)
    ensures row[ActualPriceCol].value == row[ActualCol].value * HourlyRate
    ensures row[GainLossCol].value == row[BidPriceCol].value - row[ActualPriceCol].value
  {
    RowOf(h.year, YearFigures(h))
  }

  /** The seven cells of a row, by column. */
  function RowOf(year: string, f: Figures): (row: Row)
    ensures |row| == 7 && row[YearCol] == Text(year)
    ensures row[BidCol] == Number(f.bid) && row[ActualCol] == Number(f.actual)
    ensures row[PercentCol] == Number(f.fraction) && row[BidPriceCol] == Number(f.bidPrice)
    ensures row[ActualPriceCol] == Number(f.actualPrice) && row[GainLossCol] == Number(f.gainLoss)
    ensures forall c | BidCol <= c <= GainLossCol :: row[c].Number?
  {
    [Text(year), Number(f.bid), Number(f.actual), Number(f.fraction),
     Number(f.bidPrice), Number(f.actualPrice), Number(f.gainLoss)]
  }

  /** The spreadsheet row carries the figures the screen shows for the same
      year, the variance divided by 100. */
  lemma RowMatchesScreen(h: HistoryEntry)
    ensures var row, line := HistoryRow(h), HistoryLineOf(h);
            && row[YearCol].text == line.year
            && row[BidCol].value == line.bid
            && row[ActualCol].value == line.actual
            && row[PercentCol].value == line.percent / 100.0
            && row[BidPriceCol].value == line.bidPrice
            && row[ActualPriceCol].value == line.actualPrice
            && row[GainLossCol].value == line.gainLoss
  {
  }

  /** Rows of history years, each with a number in columns B to G. */
  predicate DataRows(rows: seq<Row>) {
    forall i | 0 <= i < |rows| :: |rows[i]| == 7 && rows[i][YearCol].Text?
      && forall c | BidCol <= c <= GainLossCol :: rows[i][c].Number?
  }

  function HistoryRows(hs: seq<HistoryEntry>): (rows: seq<Row>)
    ensures |rows| == |hs|
    ensures forall i {:trigger HistoryRow(hs[i])} | 0 <= i < |hs| :: rows[i] == HistoryRow(hs[i])
    ensures DataRows(rows)
  {
    var rows := seq(|hs|, i requires 0 <= i < |hs| => HistoryRow(hs[i]));
    assert forall i | 0 <= i < |hs| :: rows[i] == HistoryRow(hs[i]) && |rows[i]| == 7 && rows[i][YearCol].Text?;
    rows
  }

  /** The formats of `n` data rows: columns D to G of rows 1 to `n` (the header
      is row 0), D as a percentage and E to G as currency. */
  function HistoryFormats(n: nat): (m: map<(nat, nat), NumFormat>)
    ensures forall p | p in m :: 1 <= p.0 <= n && PercentCol <= p.1 <= GainLossCol
    ensures forall p: (nat, nat) | 1 <= p.0 <= n && PercentCol <= p.1 <= GainLossCol :: p in m
    ensures forall p | p in m :: m[p] == (if p.1 == PercentCol then Percent else Currency)
  {
    if n == 0 then
      map[]
    else
      HistoryFormats(n - 1)[(n, PercentCol) := Percent][(n, BidPriceCol) := Currency]
        [(n, ActualPriceCol) := Currency][(n, GainLossCol) := Currency]
  }

  const HistoryWidths: seq<nat> := [8, 12, 12, 10, 15, 15, 15]

  /** The History sheet over the rows of the saved history years: the header
      row, then the data rows, with formats on columns D to G of the data rows
      only, all of which hold numbers. */
  function HistorySheet(rows: seq<Row>): (sh: Sheet)
    requires DataRows(rows)
    ensures sh.name == "History" && |sh.widths| == |HistoryHeader|
    ensures |sh.rows| == |rows| + 1 && sh.rows[0] == HistoryHeader && sh.rows[1..] == rows
    ensures FormatsOnNumbers(sh)
    ensures forall p | p in sh.formats :: 1 <= p.0 < |sh.rows| && PercentCol <= p.1 <= GainLossCol
    ensures forall p: (nat, nat) | 1 <= p.0 < |sh.rows| && PercentCol <= p.1 <= GainLossCol :: p in sh.formats
  {
    Sheet("History", [HistoryHeader] + rows, HistoryFormats(|rows|), HistoryWidths)
  }

  // ---------------------------------------------------------------------------
  // Summary figures

  /** The total of column `c`, added up from the top row down, starting at 0. */
  function ColumnSum(rows: seq<Row>, c: nat): (s: real)
    requires DataRows(rows) && BidCol <= c <= GainLossCol
    ensures rows == [] ==> s == 0.0
    ensures |rows| == 1 ==> s == rows[0][c].value
  {
    if rows == [] then 0.0 else ColumnSum(rows[..|rows| - 1], c) + rows[|rows| - 1][c].value
  }

  /** Rows whose gain/loss is bid price less labour at the hourly rate, as every
      history row's is. */
  predicate Priced(rows: seq<Row>)
    requires DataRows(rows)
  {
    forall i | 0 <= i < |rows| ::
      && rows[i][ActualPriceCol].value == rows[i][ActualCol].value * HourlyRate
      && rows[i][GainLossCol].value == rows[i][BidPriceCol].value - rows[i][ActualPriceCol].value
  }

  lemma HistoryRowsPriced(hs: seq<HistoryEntry>)
    ensures Priced(HistoryRows(hs))
  {
    forall i | 0 <= i < |hs|
      ensures HistoryRows(hs)[i] == HistoryRow(hs[i])
    {
    }
  }

  /** Total gain/loss is the total bid price less the labour cost of the total
      actual hours. */
  lemma {:induction false} GainLossTotal(rows: seq<Row>)
    requires DataRows(rows) && Priced(rows)
    ensures ColumnSum(rows, GainLossCol) == ColumnSum(rows, BidPriceCol) - HourlyRate * ColumnSum(rows, ActualCol)
    decreases |rows|
  {
    if rows != [] {
      GainLossTotal(rows[..|rows| - 1]);
    }
  }

  /** A column whose every entry lies in [lo, hi] sums to between n*lo and n*hi. */
  lemma {:induction false} ColumnSumBounds(rows: seq<Row>, c: nat, lo: real, hi: real)
    requires DataRows(rows) && BidCol <= c <= GainLossCol
    requires forall i | 0 <= i < |rows| :: lo <= rows[i][c].value <= hi
    ensures |rows| as real * lo <= ColumnSum(rows, c) <= |rows| as real * hi
    decreases |rows|
  {
    if rows != [] {
      var init := rows[..|rows| - 1];
      var m := |init| as real;
      ColumnSumBounds(init, c, lo, hi);
      assert |rows| as real * lo == m * lo + lo;
      assert |rows| as real * hi == m * hi + hi;
    }
  }

  /** `Math.max` over numbers, None standing for NaN: NaN as soon as one
      argument is NaN, otherwise the largest argument. */
  function MaxOf(xs: seq<Option<real>>): (m: Option<real>)
    requires xs != []
    ensures m.Some? <==> forall i | 0 <= i < |xs| :: xs[i].Some?
    ensures m.Some? ==> forall i | 0 <= i < |xs| :: xs[i].value <= m.value
    ensures m.Some? ==> exists i | 0 <= i < |xs| :: xs[i] == m
  {
    if |xs| == 1 then
      xs[0]
    else
      var rest := MaxOf(xs[1..]);
      assert forall i | 1 <= i < |xs| :: xs[1..][i - 1] == xs[i];
      if xs[0].None? || rest.None? then
        None
      else if xs[0].value >= rest.value then
        xs[0]
      else
        assert exists i | 1 <= i < |xs| :: xs[i] == rest by {
          var j :| 0 <= j < |xs[1..]| && xs[1..][j] == rest;
          assert xs[j + 1] == rest;
        }
        rest
  }

  /** The year column as `Math.max` reads it: each text converted with `Number`. */
  function YearValues(rows: seq<Row>): (ys: seq<Option<real>>)
    requires DataRows(rows)
    ensures |ys| == |rows|
    ensures forall i | 0 <= i < |rows| :: ys[i] == NumberOf(rows[i][YearCol].text)
  {
    seq(|rows|, i requires 0 <= i < |rows| => NumberOf(rows[i][YearCol].text))
  }

  /** The figures of the Summary sheet. The most recent year is None for NaN. */
  datatype Kpis = Kpis(totalGainLoss: real, avgBid: real, avgActual: real, avgDiff: real, mostRecentYear: Option<real>)

  /** The summary of the history rows: all zero (and the year 0) when there are
      none, otherwise the gain/loss total, the means of bid hours, actual hours
      and variance, and the latest year. */
  lemma MeanTimesCount(sum: real, n: real)
    requires n > 0.0
    ensures (sum / n) * n == sum
  {
  }

  /** The column total divided by the number of rows: the mean of a column over
      a non-empty set of rows. */
  function Mean(rows: seq<Row>, c: nat): (m: real)
    requires DataRows(rows) && rows != [] && BidCol <= c <= GainLossCol
    ensures m * |rows| as real == ColumnSum(rows, c)
  {
    MeanTimesCount(ColumnSum(rows, c), |rows| as real);
    ColumnSum(rows, c) / |rows| as real
  }

  /** The summary of the history rows: all zero (and the year 0) when there are
      none, otherwise the gain/loss total, the means of bid hours, actual hours
      and variance, and the latest year. */
  function KpisOf(rows: seq<Row>): (k: Kpis)
    requires DataRows(rows)
    ensures rows == [] ==> k == Kpis(0.0, 0.0, 0.0, 0.0, Some(0.0))
    ensures rows != [] ==>
              && k.totalGainLoss == ColumnSum(rows, GainLossCol)
              && k.avgBid == Mean(rows, BidCol)
              && k.avgActual == Mean(rows, ActualCol)
              && k.avgDiff == Mean(rows, PercentCol)
              && k.mostRecentYear == MaxOf(YearValues(rows))
  {
    if rows == [] then
      Kpis(0.0, 0.0, 0.0, 0.0, Some(0.0))
    else
      Kpis(ColumnSum(rows, GainLossCol), Mean(rows, BidCol), Mean(rows, ActualCol), Mean(rows, PercentCol),
           MaxOf(YearValues(rows)))
  }

  lemma WithinBounds(x: real, n: real, lo: real, hi: real)
    requires n > 0.0 && n * lo <= x * n <= n * hi
    ensures lo <= x <= hi
  {
    assert (x - lo) * n >= 0.0;
    assert (hi - x) * n >= 0.0;
  }

  /** A column's mean lies between bounds on its values. */
  lemma MeanBetween(rows: seq<Row>, c: nat, lo: real, hi: real)
    requires DataRows(rows) && rows != [] && BidCol <= c <= GainLossCol
    requires forall i | 0 <= i < |rows| :: lo <= rows[i][c].value <= hi
    ensures lo <= Mean(rows, c) <= hi
  {
    ColumnSumBounds(rows, c, lo, hi);
    WithinBounds(Mean(rows, c), |rows| as real, lo, hi);
  }

  /** Each average lies between the smallest and the largest value averaged. */
  lemma AverageBetween(rows: seq<Row>, c: nat, lo: real, hi: real)
    requires DataRows(rows) && rows != [] && (c == BidCol || c == ActualCol || c == PercentCol)
    requires forall i | 0 <= i < |rows| :: lo <= rows[i][c].value <= hi
    ensures var k := KpisOf(rows);
            var avg := if c == BidCol then k.avgBid else if c == ActualCol then k.avgActual else k.avgDiff;
            lo <= avg <= hi
  {
    MeanBetween(rows, c, lo, hi);
  }


  /** The most recent year, or the text `N/A` when that year is NaN or 0 (both
      falsy in JavaScript). */
  function YearCell(m: Option<real>): (c: Cell)
    ensures c == Text("N/A") <==> m.None? || m.value == 0.0
    ensures c.Number? ==> m == Some(c.value)
    ensures m.Some? && m.value != 0.0 ==> c == Number(m.value)
  {
    if m.None? || m.value == 0.0 then Text("N/A") else Number(m.value)
  }

  /** A worked year: bid 10 h, actual 12 h, bid price $500 gives a 20 % overrun,
      $300 of labour and a $200 gain. */
  lemma WorkedRow()
    ensures HistoryRow(HistoryEntry("2023", "10", "12", "500"))
            == [Text("2023"), Number(10.0), Number(12.0), Number(0.2), Number(500.0), Number(300.0), Number(200.0)]
  {
    var h := HistoryEntry("2023", "10", "12", "500");
    Numerals();
    ReadsAsWhole("10", 10);
    ReadsAsWhole("12", 12);
    ReadsAsWhole("500", 500);
    var f := YearFigures(h);
    assert f == Figures(10.0, 12.0, 500.0, 300.0, 200.0, 0.2);
  }

  /** The summary of a single row is that row's own figures. */
  lemma SingleRowSummary(row: Row)
    requires DataRows([row])
    ensures KpisOf([row]) == Kpis(row[GainLossCol].value, row[BidCol].value, row[ActualCol].value,
                                  row[PercentCol].value, NumberOf(row[YearCol].text))
  {
    var rows := [row];
    assert rows[0] == row && rows[..0] == [];
    assert |row| == 7 && row[YearCol].Text?;
    assert forall c | BidCol <= c <= GainLossCol :: row[c].Number?;
    forall c | BidCol <= c <= GainLossCol
      ensures Mean(rows, c) == row[c].value
    {
      assert ColumnSum(rows, c) == row[c].value;
    }
    var ys := YearValues(rows);
    assert ys == [NumberOf(row[YearCol].text)];
    assert MaxOf(ys) == ys[0];
  }

  lemma SingleHistoryRow(h: HistoryEntry)
    ensures HistoryRows([h]) == [HistoryRow(h)]
  {
    HistoryRowsOne([h], h);
  }

  /** The rows of a one-year history: that year's row alone. */
  lemma HistoryRowsOne(hs: seq<HistoryEntry>, h: HistoryEntry)
    requires hs == [h]
    ensures HistoryRows(hs) == [HistoryRow(h)]
  {
    var rows := HistoryRows(hs);
    assert rows[0] == HistoryRow(hs[0]);
  }

  /** The summary of the worked year: its own figures, and 2023 as the most
      recent year. */
  lemma WorkedSummary()
    ensures KpisOf(HistoryRows([HistoryEntry("2023", "10", "12", "500")])) == Kpis(200.0, 10.0, 12.0, 0.2, Some(2023.0))
  {
    var h := HistoryEntry("2023", "10", "12", "500");
    SingleHistoryRow(h);
    WorkedRow();
    SingleRowSummary(HistoryRow(h));
    assert NumberOf("2023") == Some(2023.0) by {
      Numerals();
      ReadsAsWhole("2023", 2023);
    }
  }


  /** A single history row whose year was typed as 0 gives the text N/A rather
      than a year. */
  lemma YearZeroIsNA(row: Row)
    requires DataRows([row]) && |row| == 7 && row[YearCol] == Text("0")
    ensures YearCell(KpisOf([row]).mostRecentYear) == Text("N/A")
  {
    SingleRowSummary(row);
    assert NumberOf("0") == Some(0.0) by {
      Numerals();
      ReadsAsWhole("0", 0);
    }
  }

  // ---------------------------------------------------------------------------
  // Summary and Notes sheets

  /** The Summary sheet of a site with figures `k`: the two averages of hours as
      two-decimal text, the variance and total as numbers formatted as percent
      and currency, and the latest year or N/A. */
  function SummarySheet(siteName: string, k: Kpis): (sh: Sheet)
    ensures sh.name == "Summary" && sh.widths == [35, 20]
    ensures |sh.rows| == 10 && forall i | i in {0, 4, 5, 6, 7, 9} :: |sh.rows[i]| == 2
    ensures sh.rows[1] == [] && sh.rows[3] == [] && sh.rows[8] == []
    ensures sh.rows[0][1] == Text(OrElse(siteName, "N/A"))
    ensures sh.rows[4][1] == Fixed(k.avgBid, 2) && sh.rows[5][1] == Fixed(k.avgActual, 2)
    ensures sh.rows[6][1] == Number(k.avgDiff) && sh.rows[7][1] == Number(k.totalGainLoss)
    ensures sh.rows[9][1] == YearCell(k.mostRecentYear)
    ensures sh.rows[0][0] == Label(SiteLabel) && sh.rows[2] == [Label(KpiTitle)]
    ensures sh.rows[4][0] == Label(AvgBidLabel) && sh.rows[5][0] == Label(AvgActualLabel)
    ensures sh.rows[6][0] == Label(AvgDiffLabel) && sh.rows[7][0] == Label(TotalLabel)
    ensures sh.rows[9][0] == Label(RecentYearLabel)
    ensures FormatsOnNumbers(sh)
    ensures sh.formats == map[(6, 1) := Percent, (7, 1) := Currency]
  {
    Sheet("Summary", [
      [Label(SiteLabel), Text(OrElse(siteName, "N/A"))],
      [],
      [Label(KpiTitle)],
      [],
      [Label(AvgBidLabel), Fixed(k.avgBid, 2)],
      [Label(AvgActualLabel), Fixed(k.avgActual, 2)],
      [Label(AvgDiffLabel), Number(k.avgDiff)],
      [Label(TotalLabel), Number(k.totalGainLoss)],
      [],
      [Label(RecentYearLabel), YearCell(k.mostRecentYear)]
    ], map[(6, 1) := Percent, (7, 1) := Currency], [35, 20])
  }

  /** With no history every figure is 0 and the year reads N/A. */
  lemma EmptyHistorySummary(siteName: string)
    ensures var sh := SummarySheet(siteName, KpisOf(HistoryRows([])));
            && sh.rows[4][1] == Fixed(0.0, 2) && sh.rows[5][1] == Fixed(0.0, 2)
            && sh.rows[6][1] == Number(0.0) && sh.rows[7][1] == Number(0.0)
            && sh.rows[9][1] == Text("N/A")
  {
  }

  /** The Notes sheet of a record whose completion date prints as `date`. */
  function NotesSheet(date: string, f: CompletedFields): (sh: Sheet)
    ensures sh.name == "Notes" && sh.widths == [80] && sh.formats == map[]
    ensures |sh.rows| == 11 && |sh.rows[3]| == 2 && |sh.rows[4]| == 2 && |sh.rows[5]| == 2
    ensures sh.rows[3][1] == Text(date)
    ensures sh.rows[4][1] == Text(f.deficiencies)
    ensures sh.rows[5][1] == Text(if f.reportSent then "Yes" else "No")
    ensures sh.rows[7] == [Text(f.discrepancies)] && sh.rows[10] == [Text(f.notes)]
    ensures sh.rows[3][0] == Label(DateLabel) && sh.rows[4][0] == Label(DeficienciesLabel)
    ensures sh.rows[5][0] == Label(ReportSentLabel)
    ensures sh.rows[6] == [Label(FieldNotesLabel)] && sh.rows[9] == [Label(QuoteNotesLabel)]
  {
    Sheet("Notes", [
      [Label(NotesTitle)],
      [Label(NotesIntro)],
      [],
      [Label(DateLabel), Text(date)],
      [Label(DeficienciesLabel), Text(f.deficiencies)],
      [Label(ReportSentLabel), Text(YesNo(f.reportSent))],
      [Label(FieldNotesLabel)],
      [Text(f.discrepancies)],
      [],
      [Label(QuoteNotesLabel)],
      [Text(f.notes)]
    ], map[], [80])
  }

  // ---------------------------------------------------------------------------
  // Workbooks

  datatype Workbook = Workbook(fileName: string, sheets: seq<Sheet>)

  /** The workbook of a completed record: the three sheets in order, named
      after the site and project. The Notes sheet prints the completion date the
      way the completed table shows it. */
  function BuildWorkbook(x: Completed): (w: Workbook)
    requires DateInput(x.fields.dateCompleted)
    ensures |w.sheets| == 3
    ensures w.sheets[0] == HistorySheet(HistoryRows(x.fields.hoursHistory))
    ensures w.sheets[1] == SummarySheet(x.fields.siteName, KpisOf(HistoryRows(x.fields.hoursHistory)))
    ensures w.sheets[2] == NotesSheet(FormatDate(ParseLocalDate(x.fields.dateCompleted)), x.fields)
    ensures w.sheets[2].rows[3][1] == Text(CompletedRowOf(x).date)
    ensures w.sheets[2].rows[3][1] == Text([]) <==> x.fields.dateCompleted == []
    ensures w.fileName == XlsxFileName(x.fields.siteName, x.fields.projectNumber)
  {
    var f := x.fields;
    var rows := HistoryRows(f.hoursHistory);
    Workbook(XlsxFileName(f.siteName, f.projectNumber),
             [HistorySheet(rows), SummarySheet(f.siteName, KpisOf(rows)),
              NotesSheet(FormatDate(ParseLocalDate(f.dateCompleted)), f)])
  }

  datatype ExportResult = NothingToExport | Files(books: seq<Workbook>)

  /** The download button: a message when there are no completed records,
      otherwise one workbook per record in stored order. */
  function ExportAll(data: seq<Completed>): (r: ExportResult)
    requires CompletedDates(data)
    ensures r.NothingToExport? <==> data == []
    ensures r.Files? ==> |r.books| == |data|
    ensures r.Files? ==> forall i | 0 <= i < |data| ::
              r.books[i].fileName == XlsxFileName(data[i].fields.siteName, data[i].fields.projectNumber)
    ensures r.Files? ==> forall i | 0 <= i < |data| ::
              && |r.books[i].sheets| == 3
              && r.books[i].sheets[0] == HistorySheet(HistoryRows(data[i].fields.hoursHistory))
              && r.books[i].sheets[1] == SummarySheet(data[i].fields.siteName, KpisOf(HistoryRows(data[i].fields.hoursHistory)))
              && r.books[i].sheets[2] == NotesSheet(FormatDate(ParseLocalDate(data[i].fields.dateCompleted)), data[i].fields)
              && r.books[i].sheets[2].rows[3][1] == Text(CompletedRowOf(data[i]).date)
  {
    if data == [] then
      NothingToExport
    else
      Files(seq(|data|, i requires 0 <= i < |data| =>
        BuildWorkbook(data[i])))
  }
}

=== FILE: filenames.dfy ===
/** The names of the downloaded files.

    A spreadsheet is named after its site and project number: every character
    of the site name that is not an ASCII letter or digit becomes `_`, the rest
    is lower-cased, and a missing site name counts as `Untitled`. The PDF is named
    after the saved report week, with `YYYY-MM-DD` standing in for an unset end
    of the range. */
module FileNames {
  import opened Wrappers
  import opened Repository

  predicate IsAsciiAlnum(c: char) {
    ('a' <= c <= 'z') || ('A' <= c <= 'Z') || ('0' <= c <= '9')
  }

  /** The characters a sanitised name is made of. */
  predicate IsSafe(c: char) {
    ('a' <= c <= 'z') || ('0' <= c <= '9') || c == '_'
  }

  /** `toLowerCase` on the characters that survive the replacement. */
  function ToLower(c: char): (d: char)
    requires IsAsciiAlnum(c)
    ensures IsSafe(d) && d != '_'
    ensures 'a' <= c <= 'z' || '0' <= c <= '9' ==> d == c
    ensures 'A' <= c <= 'Z' ==> d as int - c as int == 32
  {
    if 'A' <= c <= 'Z' then (c as int + 32) as char else c
  }

  /** Every character that is not an ASCII letter or digit becomes an
      underscore, and the letters that remain are lower-cased. */
  function Sanitize(s: string): (r: string)
    ensures |r| == |s|
    ensures forall i | 0 <= i < |r| :: IsSafe(r[i])
    ensures forall i | 0 <= i < |s| :: r[i] == '_' <==> !IsAsciiAlnum(s[i])
    ensures forall i | 0 <= i < |s| :: IsAsciiAlnum(s[i]) ==> r[i] == ToLower(s[i])
  {
    if s == [] then
      []
    else
      (if IsAsciiAlnum(s[0]) then [ToLower(s[0])] else ['_']) + Sanitize(s[1..])
  }

  /** Text that is already safe is left as it is. */
  lemma {:induction false} SanitizeSafe(s: string)
    requires forall i | 0 <= i < |s| :: IsSafe(s[i])
    ensures Sanitize(s) == s
    decreases |s|
  {
    if s != [] {
      SanitizeSafe(s[1..]);
    }
  }

  /** So sanitising twice is sanitising once. */
  lemma SanitizeIdempotent(s: string)
    ensures Sanitize(Sanitize(s)) == Sanitize(s)
  {
    SanitizeSafe(Sanitize(s));
  }

  /** The stand-in name sanitises to its lower-case form. */
  lemma SanitizeUntitled()
    ensures Sanitize("Untitled") == "untitled"
  {
    var u := "Untitled";
    var r := Sanitize(u);
    assert |r| == 8;
    assert u[0] == 'U' && IsAsciiAlnum(u[0]) && r[0] == 'u';
    assert u[1] == 'n' && IsAsciiAlnum(u[1]) && r[1] == 'n';
    assert u[2] == 't' && IsAsciiAlnum(u[2]) && r[2] == 't';
    assert u[3] == 'i' && IsAsciiAlnum(u[3]) && r[3] == 'i';
    assert u[4] == 't' && IsAsciiAlnum(u[4]) && r[4] == 't';
    assert u[5] == 'l' && IsAsciiAlnum(u[5]) && r[5] == 'l';
    assert u[6] == 'e' && IsAsciiAlnum(u[6]) && r[6] == 'e';
    assert u[7] == 'd' && IsAsciiAlnum(u[7]) && r[7] == 'd';
  }

  /** The sanitised site name, `Untitled` standing in for a missing one. */
  function SafeFileName(siteName: string): (r: string)
    ensures siteName == [] ==> r == "untitled"
    ensures siteName != [] ==> r == Sanitize(siteName) && |r| == |siteName|
    ensures r != [] && forall i | 0 <= i < |r| :: IsSafe(r[i])
  {
    var name := OrElse(siteName, "Untitled");
    if siteName == [] then
      SanitizeUntitled();
      Sanitize(name)
    else
      Sanitize(name)
  }

  /** `<safe site name>_<project number>.xlsx`. */
  function XlsxFileName(siteName: string, projectNumber: string): (r: string)
    ensures |r| == |SafeFileName(siteName)| + 1 + |projectNumber| + 5
    ensures r[..|SafeFileName(siteName)|] == SafeFileName(siteName)
    ensures r[|SafeFileName(siteName)|] == '_'
    ensures r[|SafeFileName(siteName)| + 1..|r| - 5] == projectNumber
    ensures r[|r| - 5..] == ".xlsx"
  {
    SafeFileName(siteName) + "_" + projectNumber + ".xlsx"
  }

  /** The file name written for a site that has no name. */
  lemma UntitledName(projectNumber: string)
    ensures XlsxFileName("", projectNumber) == "untitled_" + projectNumber + ".xlsx"
  {
  }

  const PdfPrefix: string := "Omni_IT_Report_"
  const Placeholder: string := "YYYY-MM-DD"

  /** The PDF name for the saved report week (None when no week was saved). */
  function PdfFileName(range: Option<DateRange>): (r: string)
    ensures |r| >= |PdfPrefix| + 10
    ensures r[..|PdfPrefix|] == PdfPrefix && r[|r| - 4..] == ".pdf"
    ensures range.None? ==> r == "Omni_IT_Report_YYYY-MM-DD_to_YYYY-MM-DD.pdf"
  {
    var start := if range.Some? then OrElse(range.value.start, Placeholder) else Placeholder;
    var end := if range.Some? then OrElse(range.value.end, Placeholder) else Placeholder;
    PdfPrefix + start + "_to_" + end + ".pdf"
  }

  /** With ten-character bounds (a day or the placeholder), the two halves of the
      range can be read back from fixed positions of the name. */
  lemma PdfNameRoundTrip(start: string, end: string)
    requires |start| == 10 && |end| == 10
    ensures var r := PdfFileName(Some(DateRange(start, end)));
            && |r| == 43
            && r[15..25] == start
            && r[25..29] == "_to_"
            && r[29..39] == end
  {
  }

  /** An unset start of the range is written as the placeholder, and the end
      keeps its place. */
  lemma PdfNameUnsetStart(end: string)
    requires |end| == 10
    ensures var r := PdfFileName(Some(DateRange("", end)));
            r[15..25] == Placeholder && r[29..39] == end
  {
  }

  /** An unset end of the range is written as the placeholder. */
  lemma PdfNameUnsetEnd(start: string)
    requires |start| == 10
    ensures PdfFileName(Some(DateRange(start, "")))[29..39] == Placeholder
  {
  }

  /** A saved range with neither bound set names the file as if no range had
      been saved. */
  lemma PdfNameUnsetBoth()
    ensures PdfFileName(Some(DateRange("", ""))) == PdfFileName(None)
    ensures PdfFileName(Some(DateRange("", ""))) == "Omni_IT_Report_YYYY-MM-DD_to_YYYY-MM-DD.pdf"
  {
  }
}

=== FILE: metrics.dfy ===
/** The per-row figures and the colour classes the tables give them.

    The same formulas serve the current year of a completed record, each of its
    history years on screen, and each history row of the spreadsheet: labour cost
    is actual hours at a fixed hourly rate, gain/loss is bid price minus labour
    cost, and the hours variance is relative to the bid, defined as zero when
    there is no bid. */
module Metrics {
  import opened Wrappers
  import opened Numeric
  import opened Records

  /** Dollars per hour of labour. */
  const HourlyRate: real := 25.0

  /** Labour cost of the actual hours at the hourly rate. */
  function ActualPrice(actualHours: real): (p: real)
    ensures p / HourlyRate == actualHours
    ensures p == 0.0 <==> actualHours == 0.0
  {
    actualHours * HourlyRate
  }

  /** Bid price less the labour cost. */
  function GainLoss(bidPrice: real, actualHours: real): (g: real)
    ensures g == bidPrice <==> actualHours == 0.0
    ensures g < bidPrice <==> actualHours > 0.0
  {
    bidPrice - actualHours * HourlyRate
  }

  /** Hours variance as a fraction of the bid (0.1 for ten percent over). */
  function PercentFraction(bid: real, actual: real): (f: real)
    ensures bid == 0.0 ==> f == 0.0
    ensures bid != 0.0 ==> bid + bid * f == actual
    ensures bid > 0.0 ==> (f > 0.0 <==> actual > bid) && (f == 0.0 <==> actual == bid)
  {
    if bid != 0.0 then (actual - bid) / bid else 0.0
  }

  /** A positive gain/loss means the bid price covered the labour at the hourly
      rate; the break-even point is bid price / rate hours. */
  lemma BreakEven(bidPrice: real, actualHours: real)
    ensures GainLoss(bidPrice, actualHours) > 0.0 <==> actualHours < bidPrice / HourlyRate
    ensures GainLoss(bidPrice, actualHours) == 0.0 <==> actualHours == bidPrice / HourlyRate
    ensures GainLoss(bidPrice, actualHours) + ActualPrice(actualHours) == bidPrice
  {
  }

  /** The figures of one history year, each input read with `parseFloat(x) || 0`. */
  datatype Figures = Figures(bid: real, actual: real, bidPrice: real, actualPrice: real, gainLoss: real, fraction: real)

  function YearFigures(h: HistoryEntry): (f: Figures)
    ensures f.actualPrice == f.actual * HourlyRate
    ensures f.gainLoss == f.bidPrice - f.actualPrice
    ensures f.bid == Coerce(h.bid) && f.actual == Coerce(h.actual) && f.bidPrice == Coerce(h.bidPrice)
    ensures f.fraction == PercentFraction(f.bid, f.actual)
    ensures Coerce(h.bid) == 0.0 ==> f.fraction == 0.0
  {
    var bid := Coerce(h.bid);
    var actual := Coerce(h.actual);
    var bidPrice := Coerce(h.bidPrice);
    Figures(bid, actual, bidPrice, ActualPrice(actual), GainLoss(bidPrice, actual), PercentFraction(bid, actual))
  }

  /** The current-year percentage of a completed record, from the bid text and
      the coerced actual and bid hours. Unlike the history rows it divides by the
      bid text converted with `Number` (the loose `!= 0` and the division by the
      text itself), so text that `Number` rejects gives NaN, represented by None. */
  function CurrentPercent(bidHours: string, actual: real, bid: real): (r: Option<real>)
    ensures bidHours == [] ==> r == Some(0.0)
    ensures r.None? <==> bidHours != [] && NumberOf(bidHours).None?
  {
    if bidHours == [] then Some(0.0) else PercentOfBid(NumberOf(bidHours), actual - bid)
  }

  /** The difference as a percentage of the bid, 0 for a zero bid, for a bid
      that is a number or NaN. */
  function PercentOfBid(bid: Option<real>, diff: real): (r: Option<real>)
    ensures r.None? <==> bid.None?
  {
    match bid
    case None => None
    case Some(b) => if b != 0.0 then Some(diff / b * 100.0) else Some(0.0)
  }

  /** For bid text that `Number` reads as the coerced bid, the current-year
      percentage is the shared formula times 100. */
  lemma CurrentPercentAt(bidHours: string, actual: real, bid: real)
    requires bidHours != [] && NumberOf(bidHours) == Some(bid)
    ensures CurrentPercent(bidHours, actual, bid) == Some(PercentFraction(bid, actual) * 100.0)
  {
    PercentOfBidAgrees(bid, actual, actual - bid);
  }

  /** Over a bid that reads as a number, the percentage is the shared variance
      formula times 100. */
  lemma PercentOfBidAgrees(bid: real, actual: real, diff: real)
    requires diff == actual - bid
    ensures PercentOfBid(Some(bid), diff) == Some(PercentFraction(bid, actual) * 100.0)
  {
    if bid != 0.0 {
      assert PercentFraction(bid, actual) == diff / bid;
    }
  }

  /** When the bid text is empty, or `Number` reads it as a number at all, the
      current-year percentage over the coerced bid is the shared variance
      formula over the coerced figures times 100. */
  lemma CurrentPercentOfCoerced(bidHours: string, actual: real, bid: real)
    requires bid == Coerce(bidHours)
    requires bidHours == [] || NumberOf(bidHours).Some?
    ensures CurrentPercent(bidHours, actual, bid) == Some(PercentFraction(bid, actual) * 100.0)
  {
    if bidHours == [] {
      assert bidHours == "";
      CurrentPercentEmptyBid(actual);
    } else {
      NumberAgreesWithCoerce(bidHours);
      CurrentPercentAt(bidHours, actual, bid);
    }
  }

  /** Where `Number` and `parseFloat` read the bid text alike, the current-year
      percentage is the shared variance formula times 100. */
  lemma ReadAlikePercent(bidHours: string, bid: real, actual: real)
    requires ParseFloat(bidHours) == Some(bid) && NumberOf(bidHours) == Some(bid)
    ensures Coerce(bidHours) == bid
    ensures CurrentPercent(bidHours, actual, bid) == Some(PercentFraction(bid, actual) * 100.0)
  {
    ParsedNonEmpty(bidHours);
    CurrentPercentAt(bidHours, actual, bid);
  }

  /** Plain decimal bid text is such a text. */
  lemma CurrentPercentAgrees(negative: bool, intDigits: string, fracDigits: string, actual: real, bidHours: string, bid: real)
    requires AllDigits(intDigits) && AllDigits(fracDigits) && 1 <= |intDigits|
    requires bidHours == DecimalText(negative, intDigits, fracDigits) && bid == DecimalValue(negative, intDigits, fracDigits)
    ensures Coerce(bidHours) == bid
    ensures CurrentPercent(bidHours, actual, bid) == Some(PercentFraction(bid, actual) * 100.0)
  {
    DecimalTextRoundTrip(negative, intDigits, fracDigits);
    ReadAlikePercent(bidHours, bid, actual);
  }

  /** With no bid text, the current-year percentage is 0, as the shared formula
      gives for a bid of 0. */
  lemma CurrentPercentEmptyBid(actual: real)
    ensures CurrentPercent("", actual, Coerce("")) == Some(PercentFraction(Coerce(""), actual) * 100.0)
  {
    EmptyIsZero();
  }

  // ---------------------------------------------------------------------------
  // Colour classes: `text-success`, `text-danger`, or none.

  datatype Tone = Plain | Success | Danger

  /** Ongoing table: hours worked are flagged once they exceed the bid; there is
      no favourable colour. */
  function OngoingHoursTone(bidHours: real, hoursWorked: real): (t: Tone)
    ensures t == Danger <==> hoursWorked > bidHours
    ensures t != Success
  {
    var hoursDiff := hoursWorked - bidHours;
    if hoursDiff > 0.0 then Danger else Plain
  }

  /** History year: the percentage is red when positive and green otherwise. */
  function HistoryPercentTone(bid: real, actual: real): (t: Tone)
    ensures t != Plain
    ensures t == Danger <==> (bid > 0.0 && actual > bid) || (bid < 0.0 && actual < bid)
  {
    if PercentFraction(bid, actual) * 100.0 > 0.0 then Danger else Success
  }

  /** History year: gain/loss is green when it is not negative. */
  function HistoryGainLossTone(bidPrice: real, actual: real): (t: Tone)
    ensures t != Plain
    ensures t == Success <==> actual * HourlyRate <= bidPrice
  {
    if GainLoss(bidPrice, actual) >= 0.0 then Success else Danger
  }

  /** Current year: no colour when the hours came in exactly on the bid, whatever
      the money did; otherwise green only for a strictly positive gain/loss. */
  function CurrentGainLossTone(bidHours: real, actualHours: real, bidPrice: real): (t: Tone)
    ensures t == Plain <==> actualHours == bidHours
    ensures t == Success <==> actualHours != bidHours && actualHours * HourlyRate < bidPrice
  {
    var diff := actualHours - bidHours;
    if diff == 0.0 then Plain
    else if GainLoss(bidPrice, actualHours) > 0.0 then Success
    else Danger
  }

  /** The two gain/loss rules differ: break-even is green for a history year but
      red for the current year, and a loss on exactly the bid hours is red for a
      history year but uncoloured for the current year. */
  lemma ToneAsymmetry()
    ensures HistoryGainLossTone(250.0, 10.0) == Success && CurrentGainLossTone(8.0, 10.0, 250.0) == Danger
    ensures HistoryGainLossTone(100.0, 10.0) == Danger && CurrentGainLossTone(10.0, 10.0, 100.0) == Plain
  {
  }
}

=== FILE: numeric.dfy ===
/** Numeric coercion of form text.

    Every figure the records hold is the text of an HTML input. The metrics read
    them with `parseFloat(x) || 0` (scan the longest numeric prefix, NaN and zero
    both becoming 0); two places use the stricter `Number(x)` conversion, where the
    whole trimmed text must be numeric and the empty text is 0. Both are modelled
    over the decimal grammar: optional sign, digits, optional fraction, optional
    exponent. */
module Numeric {
  import opened Wrappers

  predicate IsDigit(c: char) {
    '0' <= c <= '9'
  }

  function DigitValue(c: char): nat
    requires IsDigit(c)
  {
    c as int - '0' as int
  }

  function DigitChar(d: nat): (c: char)
    requires d < 10
    ensures IsDigit(c) && DigitValue(c) == d
  {
    ('0' as int + d) as char
  }

  predicate AllDigits(s: string) {
    forall i | 0 <= i < |s| :: IsDigit(s[i])
  }

  /** The value of a run of decimal digits, most significant first. */
  function DigitsValue(s: string): nat
    requires AllDigits(s)
  {
    if s == [] then 0 else DigitsValue(s[..|s| - 1]) * 10 + DigitValue(s[|s| - 1])
  }

  function Pow10(n: nat): (p: nat)
    ensures p >= 1
  {
    if n == 0 then 1 else 10 * Pow10(n - 1)
  }

  lemma DigitsValueSnoc(s: string, c: char)
    requires AllDigits(s) && IsDigit(c)
    ensures AllDigits(s + [c])
    ensures DigitsValue(s + [c]) == DigitsValue(s) * 10 + DigitValue(c)
  {
    assert (s + [c])[..|s|] == s;
  }

  /** Canonical decimal text of a natural number: what JavaScript's `String(n)`
      (and a template literal) prints for a non-negative integer. */
  function NatToString(n: nat): (s: string)
    ensures 1 <= |s| && AllDigits(s)
    ensures DigitsValue(s) == n
    ensures |s| > 1 ==> s[0] != '0'
    ensures n < 10 <==> |s| == 1
  {
    if n < 10 then
      [DigitChar(n)]
    else
      var p := NatToString(n / 10);
      DigitsValueSnoc(p, DigitChar(n % 10));
      p + [DigitChar(n % 10)]
  }

  /** A digit run without superfluous leading zeros. */
  predicate Canonical(s: string) {
    1 <= |s| && AllDigits(s) && (|s| == 1 || s[0] != '0')
  }

  lemma {:induction false} LeadingNonZeroPositive(s: string)
    requires AllDigits(s) && 1 <= |s| && s[0] != '0'
    ensures DigitsValue(s) >= 1
    decreases |s|
  {
    if |s| > 1 {
      var p := s[..|s| - 1];
      assert p[0] == s[0];
      LeadingNonZeroPositive(p);
    }
  }

  /** Printing the value of a canonical digit run gives the run back: decimal
      text is read and written without loss. */
  lemma {:induction false} NatToStringOfDigits(s: string)
    requires Canonical(s)
    ensures NatToString(DigitsValue(s)) == s
    decreases |s|
  {
    if |s| > 1 {
      var p := s[..|s| - 1];
      var c := s[|s| - 1];
      assert p[0] == s[0];
      LeadingNonZeroPositive(p);
      NatToStringOfDigits(p);
      var n := DigitsValue(s);
      assert n == DigitsValue(p) * 10 + DigitValue(c);
      assert n / 10 == DigitsValue(p) && n % 10 == DigitValue(c);
      assert DigitChar(n % 10) == c;
      assert s == p + [c];
    }
  }

  /** Distinct numbers print differently. */
  lemma NatToStringInjective(m: nat, n: nat)
    requires NatToString(m) == NatToString(n)
    ensures m == n
  {
    assert DigitsValue(NatToString(m)) == m;
  }

  // ---------------------------------------------------------------------------
  // White space, as JavaScript's String.prototype.trim and the numeric
  // conversions understand it (WhiteSpace and LineTerminator code points).

  predicate IsJsSpace(c: char) {
    var u := c as int;
    u == 0x09 || u == 0x0A || u == 0x0B || u == 0x0C || u == 0x0D || u == 0x20
    || u == 0xA0 || u == 0x1680 || (0x2000 <= u <= 0x200A) || u == 0x2028
    || u == 0x2029 || u == 0x202F || u == 0x205F || u == 0x3000 || u == 0xFEFF
  }

  function TrimStart(s: string): (t: string)
    ensures |t| <= |s|
    ensures t == [] || !IsJsSpace(t[0])
    ensures forall i | 0 <= i < |s| - |t| :: IsJsSpace(s[i])
  {
    if |s| > 0 && IsJsSpace(s[0]) then
      var t := TrimStart(s[1..]);
      assert forall i | 1 <= i < |s| - |t| :: s[i] == s[1..][i - 1];
      t
    else
      s
  }

  /** What is left after the leading white space is a suffix of the text. */
  lemma {:induction false} TrimStartSuffix(s: string)
    ensures TrimStart(s) == s[|s| - |TrimStart(s)|..]
    decreases |s|
  {
    if |s| > 0 && IsJsSpace(s[0]) {
      TrimStartSuffix(s[1..]);
      assert s[1..][|s| - 1 - |TrimStart(s[1..])|..] == s[|s| - |TrimStart(s)|..];
    }
  }

  function TrimEnd(s: string): (t: string)
    ensures |t| <= |s| && t == s[..|t|]
    ensures t == [] || !IsJsSpace(t[|t| - 1])
    ensures forall i | |t| <= i < |s| :: IsJsSpace(s[i])
  {
    if |s| > 0 && IsJsSpace(s[|s| - 1]) then
      var t := TrimEnd(s[..|s| - 1]);
      assert s[..|s| - 1][..|t|] == s[..|t|];
      assert forall i | |t| <= i < |s| - 1 :: s[i] == s[..|s| - 1][i];
      t
    else
      s
  }

  function Trim(s: string): string {
    TrimEnd(TrimStart(s))
  }

  // ---------------------------------------------------------------------------
  // The decimal scanner shared by parseFloat and Number.

  /** The end of the maximal run of digits that starts at `i`. */
  function DigitRun(s: string, i: nat): (j: nat)
    requires i <= |s|
    ensures i <= j <= |s|
    ensures AllDigits(s[i..j])
    ensures j == |s| || !IsDigit(s[j])
    decreases |s| - i
  {
    if i < |s| && IsDigit(s[i]) then DigitRun(s, i + 1) else i
  }

  /** A maximal run is determined by where it starts. */
  lemma DigitRunAt(s: string, i: nat, j: nat)
    requires i <= j <= |s|
    requires AllDigits(s[i..j])
    requires j == |s| || !IsDigit(s[j])
    ensures DigitRun(s, i) == j
  {
  }

  /** The value of the digits after a decimal point. */
  function FractionValue(s: string): real
    requires AllDigits(s)
  {
    if s == [] then 0.0 else DigitsValue(s) as real / Pow10(|s|) as real
  }

  /** A numeric prefix: its value and the number of characters it spans. */
  datatype Scan = Scan(value: real, end: nat)

  /** The parts of a numeric literal as the scanner finds them: its sign, its
      integer and fraction digits, its exponent's sign and digits (none when it
      has no exponent), and the number of characters it spans. */
  datatype Literal = Literal(negative: bool, intDigits: string, fracDigits: string,
                             expNegative: bool, expDigits: string, end: nat)

  /** An exponent part: its sign, its digits and where it ends. */
  datatype Exponent = Exponent(negative: bool, digits: string, end: nat)

  /** The exponent part (`e` or `E`, optional sign, digits) that starts at `at`;
      without digits the `e` is not part of the number. */
  function ExponentAt(s: string, at: nat): (e: Exponent)
    requires at <= |s|
    ensures at <= e.end <= |s| && AllDigits(e.digits)
    ensures e.digits == [] <==> e.end == at
    ensures at == |s| ==> e == Exponent(false, [], at)
  {
    var hasExp := at < |s| && (s[at] == 'e' || s[at] == 'E');
    var expSign := hasExp && at + 1 < |s| && (s[at + 1] == '+' || s[at + 1] == '-');
    var expStart := if hasExp then at + 1 + (if expSign then 1 else 0) else at;
    var expEnd := if hasExp then DigitRun(s, expStart) else expStart;
    if expEnd > expStart then
      Exponent(s[at + 1] == '-', s[expStart..expEnd], expEnd)
    else
      Exponent(false, [], at)
  }

  /** Length of an optional leading sign. */
  function SignLength(s: string): (n: nat)
    ensures n <= |s|
  {
    if |s| > 0 && (s[0] == '+' || s[0] == '-') then 1 else 0
  }

  /** Where the parts of a mantissa lie: the sign ends at `start`, the integer
      digits run from there to `intEnd`, and the fraction digits (after a `.`
      when there is one) run from `fracStart` to `fracEnd`. */
  datatype Mantissa = Mantissa(start: nat, intEnd: nat, fracStart: nat, fracEnd: nat)

  /** The mantissa at the head of `s`: optional sign, digits, optional `.` and
      digits. */
  function MantissaAt(s: string): (m: Mantissa)
    ensures m.start == SignLength(s) && m.start <= m.intEnd <= m.fracStart <= m.fracEnd <= |s|
    ensures AllDigits(s[m.start..m.intEnd]) && AllDigits(s[m.fracStart..m.fracEnd])
    ensures m.fracStart == m.intEnd || (m.fracStart == m.intEnd + 1 && s[m.intEnd] == '.')
  {
    var start := SignLength(s);
    var intEnd := DigitRun(s, start);
    var hasDot := intEnd < |s| && s[intEnd] == '.';
    var fracStart := if hasDot then intEnd + 1 else intEnd;
    var fracEnd := if hasDot then DigitRun(s, fracStart) else fracStart;
    Mantissa(start, intEnd, fracStart, fracEnd)
  }

  /** The longest prefix of `s` that is a decimal literal (sign, digits, optional
      `.` and digits, at least one digit in all, then an optional exponent), split
      into its parts, or None when there is no such prefix. */
  function LexDecimal(s: string): (r: Option<Literal>)
    ensures r.Some? ==> 1 <= r.value.end <= |s|
    ensures r.Some? ==> r.value.intDigits != [] || r.value.fracDigits != []
    ensures r.Some? ==> AllDigits(r.value.intDigits) && AllDigits(r.value.fracDigits) && AllDigits(r.value.expDigits)
  {
    var m := MantissaAt(s);
    if m.intEnd == m.start && m.fracEnd == m.fracStart then
      None
    else
      var e := ExponentAt(s, m.fracEnd);
      Some(Literal(m.start == 1 && s[0] == '-', s[m.start..m.intEnd], s[m.fracStart..m.fracEnd], e.negative, e.digits, e.end))
  }

  /** A mantissa times (or divided by) ten to the power of the exponent. */
  function Scale(mantissa: real, negative: bool, exponent: nat): real {
    if negative then mantissa / Pow10(exponent) as real else mantissa * Pow10(exponent) as real
  }

  /** The number a literal denotes: integer and fraction digits, scaled by the
      exponent when there is one, then signed. */
  function LiteralValue(l: Literal): real
    requires AllDigits(l.intDigits) && AllDigits(l.fracDigits) && AllDigits(l.expDigits)
  {
    var mantissa := DigitsValue(l.intDigits) as real + FractionValue(l.fracDigits);
    var v := if l.expDigits == [] then mantissa else Scale(mantissa, l.expNegative, DigitsValue(l.expDigits));
    if l.negative then -v else v
  }

  /** The longest numeric prefix of `s`, or None when there is none. */
  function ScanDecimal(s: string): (r: Option<Scan>)
    ensures r.Some? <==> LexDecimal(s).Some?
    ensures r.Some? ==> 1 <= r.value.end <= |s|
  {
    match LexDecimal(s)
    case Some(l) => Some(Scan(LiteralValue(l), l.end))
    case None => None
  }

  /** JavaScript's `parseFloat(x)`: leading white space is skipped, the longest
      numeric prefix is read, anything after it is ignored; None stands for NaN. */
  function ParseFloat(s: string): (r: Option<real>)
    ensures r.Some? <==> ScanDecimal(TrimStart(s)).Some?
  {
    match ScanDecimal(TrimStart(s))
    case Some(sc) => Some(sc.value)
    case None => None
  }

  /** JavaScript's `Number(x)` on a string: white space around the text is
      ignored, the empty text is 0, and the rest must be one numeric literal in
      full; None stands for NaN. */
  function NumberOf(s: string): (r: Option<real>)
    ensures Trim(s) == [] ==> r == Some(0.0)
  {
    var t := Trim(s);
    if t == [] then
      Some(0.0)
    else
      match ScanDecimal(t)
      case Some(sc) => if sc.end == |t| then Some(sc.value) else None
      case None => None
  }

  /** Text that cannot continue a numeric literal: nothing at all, or a first
      character that is not a digit, `.`, `e`, `E` or a sign. */
  predicate StopsScan(w: string) {
    w == [] || !(IsDigit(w[0]) || w[0] == '.' || w[0] == 'e' || w[0] == 'E' || w[0] == '+' || w[0] == '-')
  }

  /** A digit run inside `t` ends where it did once text that stops a scan is
      appended. */
  lemma {:induction false} DigitRunExtend(t: string, w: string, i: nat)
    requires i <= |t| && StopsScan(w)
    ensures DigitRun(t + w, i) == DigitRun(t, i)
    decreases |t| - i
  {
    if i < |t| {
      assert (t + w)[i] == t[i];
      DigitRunExtend(t, w, i + 1);
    } else if w != [] {
      assert (t + w)[i] == w[0];
    }
  }

  /** The exponent part read at `at` inside `t` is the same once text that stops
      a scan is appended. */
  lemma ExponentAtExtend(t: string, w: string, at: nat)
    requires at <= |t| && StopsScan(w)
    ensures ExponentAt(t + w, at) == ExponentAt(t, at)
  {
    var u := t + w;
    if at < |t| {
      assert u[at] == t[at];
      if at + 1 < |t| {
        assert u[at + 1] == t[at + 1];
      } else if w != [] {
        assert u[at + 1] == w[0];
      }
      var hasExp := t[at] == 'e' || t[at] == 'E';
      var expSign := hasExp && at + 1 < |t| && (t[at + 1] == '+' || t[at + 1] == '-');
      var expStart := if hasExp then at + 1 + (if expSign then 1 else 0) else at;
      if hasExp {
        DigitRunExtend(t, w, expStart);
        var expEnd := DigitRun(t, expStart);
        assert u[expStart..expEnd] == t[expStart..expEnd];
      }
    } else if w != [] {
      assert u[at] == w[0];
    }
  }

  /** The mantissa at the head of `t` is the same once text that stops a scan is
      appended. */
  lemma MantissaAtExtend(t: string, w: string)
    requires StopsScan(w)
    ensures MantissaAt(t + w) == MantissaAt(t)
  {
    var u := t + w;
    if |t| > 0 {
      assert u[0] == t[0];
    } else if w != [] {
      assert u[0] == w[0];
    }
    var start := SignLength(t);
    assert SignLength(u) == start;
    DigitRunExtend(t, w, start);
    var intEnd := DigitRun(t, start);
    if intEnd < |t| {
      assert u[intEnd] == t[intEnd];
    } else if w != [] {
      assert u[intEnd] == w[0];
    }
    var hasDot := intEnd < |t| && t[intEnd] == '.';
    var fracStart := if hasDot then intEnd + 1 else intEnd;
    DigitRunExtend(t, w, fracStart);
  }

  /** The scanner finds the same literal in `t` once text that stops a scan is
      appended: it never looks past the first character it cannot use. */
  lemma LexDecimalExtend(t: string, w: string)
    requires StopsScan(w)
    ensures LexDecimal(t + w) == LexDecimal(t)
  {
    var u := t + w;
    MantissaAtExtend(t, w);
    var m := MantissaAt(t);
    assert m.start <= m.intEnd <= m.fracStart <= m.fracEnd <= |t|;
    assert forall i | 0 <= i < |t| :: u[i] == t[i];
    assert u[m.start..m.intEnd] == t[m.start..m.intEnd];
    assert u[m.fracStart..m.fracEnd] == t[m.fracStart..m.fracEnd];
    if m.start == 1 {
      assert u[0] == t[0];
    }
    ExponentAtExtend(t, w, m.fracEnd);
  }

  /** The same holds for the numeric prefix and its value. */
  lemma ScanDecimalExtend(t: string, w: string)
    requires StopsScan(w)
    ensures ScanDecimal(t + w) == ScanDecimal(t)
  {
    LexDecimalExtend(t, w);
  }

  /** What `TrimEnd` cuts off stops a scan. */
  lemma TrailingSpaceStopsScan(ts: string, t: string)
    requires t == TrimEnd(ts)
    ensures StopsScan(ts[|t|..])
  {
    if |t| < |ts| {
      assert ts[|t|..][0] == ts[|t|] && IsJsSpace(ts[|t|]);
    }
  }

  /** Scanning after the leading white space reads what scanning the trimmed
      text reads: trailing white space stops a scan. */
  lemma ScanIgnoresTrailingSpace(s: string)
    ensures ScanDecimal(TrimStart(s)) == ScanDecimal(Trim(s))
  {
    var ts := TrimStart(s);
    var t := TrimEnd(ts);
    var w := ts[|t|..];
    assert ts == t + w;
    TrailingSpaceStopsScan(ts, t);
    ScanDecimalExtend(t, w);
  }

  /** Whenever `Number` reads a text as a number at all, `parseFloat(x) || 0`
      reads it as the same number: both scan the text after its leading white
      space, and the trailing white space `Number` also drops stops the scan. */
  lemma NumberAgreesWithCoerce(s: string)
    requires NumberOf(s).Some?
    ensures NumberOf(s) == Some(Coerce(s))
  {
    ScanIgnoresTrailingSpace(s);
    if Trim(s) == [] {
      assert LexDecimal([]) == None;
    }
  }

  /** `parseFloat(x) || 0`: NaN (and zero) become 0. */
  function Coerce(s: string): (v: real)
    ensures ParseFloat(s).None? ==> v == 0.0
    ensures ParseFloat(s).Some? ==> v == ParseFloat(s).value
  {
    ParseFloat(s).GetOr(0.0)
  }

  // ---------------------------------------------------------------------------
  // Plain decimal text, as a number input produces it, and what both
  // conversions read from it.

  /** `-`(optional) integer digits, then `.` and fraction digits when there are any. */
  function DecimalText(negative: bool, intDigits: string, fracDigits: string): string {
    (if negative then "-" else "") + intDigits + (if fracDigits == [] then "" else "." + fracDigits)
  }

  function DecimalValue(negative: bool, intDigits: string, fracDigits: string): real
    requires AllDigits(intDigits) && AllDigits(fracDigits)
  {
    var m := DigitsValue(intDigits) as real + FractionValue(fracDigits);
    if negative then -m else m
  }

  /** The scan of text made of a sign, digits and an optional `.` with digits
      running to the end: the whole text, read as sign, integer and fraction. */
  lemma ScanPlainDecimal(s: string, start: nat, intEnd: nat, fracStart: nat)
    requires start < intEnd <= fracStart <= |s|
    requires SignLength(s) == start && DigitRun(s, start) == intEnd
    requires fracStart == intEnd ==> intEnd == |s|
    requires fracStart != intEnd ==> fracStart == intEnd + 1 && s[intEnd] == '.' && DigitRun(s, fracStart) == |s|
    ensures AllDigits(s[start..intEnd]) && AllDigits(s[fracStart..])
    ensures ScanDecimal(s) == Some(Scan(DecimalValue(start == 1 && s[0] == '-', s[start..intEnd], s[fracStart..]), |s|))
  {
    assert MantissaAt(s) == Mantissa(start, intEnd, fracStart, |s|);
    assert s[fracStart..|s|] == s[fracStart..];
  }

  lemma ScanDecimalText(negative: bool, intDigits: string, fracDigits: string)
    requires AllDigits(intDigits) && AllDigits(fracDigits) && 1 <= |intDigits|
    ensures ScanDecimal(DecimalText(negative, intDigits, fracDigits))
            == Some(Scan(DecimalValue(negative, intDigits, fracDigits), |DecimalText(negative, intDigits, fracDigits)|))
  {
    var s := DecimalText(negative, intDigits, fracDigits);
    var sign: string := if negative then "-" else "";
    var tail: string := if fracDigits == [] then "" else "." + fracDigits;
    assert s == sign + intDigits + tail;
    var start := |sign|;
    var intEnd := start + |intDigits|;
    var fracStart := if fracDigits != [] then intEnd + 1 else intEnd;
    assert SignLength(s) == start && (start == 1 && s[0] == '-' <==> negative) by {
      assert s[0] == '-' || s[0] == intDigits[0];
    }
    assert s[start..intEnd] == intDigits;
    assert s[fracStart..] == fracDigits;
    assert DigitRun(s, start) == intEnd by {
      assert intEnd == |s| || s[intEnd] == '.';
      DigitRunAt(s, start, intEnd);
    }
    assert fracStart != intEnd ==> DigitRun(s, fracStart) == |s| by {
      if fracDigits != [] {
        assert s[fracStart..|s|] == fracDigits;
        DigitRunAt(s, fracStart, |s|);
      }
    }
    ScanPlainDecimal(s, start, intEnd, fracStart);
    assert DecimalValue(start == 1 && s[0] == '-', s[start..intEnd], s[fracStart..])
        == DecimalValue(negative, intDigits, fracDigits);
  }

  /** For plain decimal text, `parseFloat` and `Number` agree and both read the
      number the text denotes. */
  lemma DecimalTextRoundTrip(negative: bool, intDigits: string, fracDigits: string)
    requires AllDigits(intDigits) && AllDigits(fracDigits) && 1 <= |intDigits|
    ensures ParseFloat(DecimalText(negative, intDigits, fracDigits)) == Some(DecimalValue(negative, intDigits, fracDigits))
    ensures NumberOf(DecimalText(negative, intDigits, fracDigits)) == Some(DecimalValue(negative, intDigits, fracDigits))
    ensures Coerce(DecimalText(negative, intDigits, fracDigits)) == DecimalValue(negative, intDigits, fracDigits)
  {
    var s := DecimalText(negative, intDigits, fracDigits);
    var sign: string := if negative then "-" else "";
    var tail: string := if fracDigits == [] then "" else "." + fracDigits;
    assert s == sign + intDigits + tail;
    assert s[0] == '-' || s[0] == intDigits[0];
    assert !IsJsSpace(s[0]);
    assert TrimStart(s) == s;
    assert s[|s| - 1] == intDigits[|intDigits| - 1] || s[|s| - 1] == fracDigits[|fracDigits| - 1];
    assert !IsJsSpace(s[|s| - 1]);
    assert TrimEnd(s) == s;
    ScanDecimalText(negative, intDigits, fracDigits);
  }

  /** A run of digits reads back as the number it spells. */
  lemma DigitsRoundTrip(s: string)
    requires AllDigits(s) && 1 <= |s|
    ensures ParseFloat(s) == Some(DigitsValue(s) as real)
    ensures NumberOf(s) == Some(DigitsValue(s) as real)
  {
    assert DecimalText(false, s, "") == s;
    DecimalTextRoundTrip(false, s, "");
  }

  /** A whole number printed in decimal reads back as itself. */
  lemma NatRoundTrip(n: nat)
    ensures ParseFloat(NatToString(n)) == Some(n as real)
    ensures NumberOf(NatToString(n)) == Some(n as real)
  {
    DigitsRoundTrip(NatToString(n));
  }

  /** Whole-number text reads as the number it spells under both conversions,
      and `parseFloat(x) || 0` keeps it. */
  lemma ReadsAsWhole(s: string, n: nat)
    requires AllDigits(s) && 1 <= |s| && DigitsValue(s) == n
    ensures ParseFloat(s) == Some(n as real) && NumberOf(s) == Some(n as real)
    ensures Coerce(s) == n as real
  {
    DigitsRoundTrip(s);
  }

  /** The digit values of the numerals used in the worked examples. */
  lemma Numerals()
    ensures AllDigits("0") && DigitsValue("0") == 0
    ensures AllDigits("10") && DigitsValue("10") == 10
    ensures AllDigits("12") && DigitsValue("12") == 12
    ensures AllDigits("500") && DigitsValue("500") == 500
    ensures AllDigits("2023") && DigitsValue("2023") == 2023
  {
    assert "0"[..0] == [];
    assert "10"[..1] == "1" && "12"[..1] == "1";
    assert "500"[..2] == "50" && "50"[..1] == "5";
    assert "2023"[..3] == "202" && "202"[..2] == "20" && "20"[..1] == "2";
  }

  /** The empty input coerces to zero under both conversions' callers. */
  lemma EmptyIsZero()
    ensures ParseFloat("") == None
    ensures Coerce("") == 0.0
    ensures NumberOf("") == Some(0.0)
  {
    assert TrimStart("") == "";
  }
  /** Only non-empty text reads as a number with `parseFloat`. */
  lemma ParsedNonEmpty(s: string)
    requires ParseFloat(s).Some?
    ensures s != []
  {
    if s == [] {
      EmptyIsZero();
    }
  }

}

=== FILE: records.dfy ===
/** The inspection records as they are stored: every figure and date is the text
    of the form input it came from. */
module Records {

  /** One past year of a site: year, bid hours, actual hours and bid price. */
  datatype HistoryEntry = HistoryEntry(year: string, bid: string, actual: string, bidPrice: string)

  /** The fields of the ongoing-inspection form. */
  datatype OngoingFields = OngoingFields(
    siteName: string,
    projectNumber: string,
    bidHours: string,
    hoursWorked: string,
    estCompletion: string,
    notes: string)

  /** The fields of the completed-inspection form, history rows included. */
  datatype CompletedFields = CompletedFields(
    siteName: string,
    projectNumber: string,
    dateCompleted: string,
    bidHours: string,
    actualHours: string,
    bidPrice: string,
    discrepancies: string,
    deficiencies: string,
    notes: string,
    reportSent: bool,
    hoursHistory: seq<HistoryEntry>)

  /** A stored record: the form's fields plus the id it was given when created. */
  datatype Rec<F> = Rec(id: string, fields: F)

  type Ongoing = Rec<OngoingFields>
  type Completed = Rec<CompletedFields>

  /** A history row is kept only when all four of its inputs are filled in. */
  predicate Complete(h: HistoryEntry) {
    h.year != [] && h.bid != [] && h.actual != [] && h.bidPrice != []
  }

  /** The history rows of the form that are saved with the record: the complete
      ones, in the order the form shows them. */
  function CaptureHistory(rows: seq<HistoryEntry>): (kept: seq<HistoryEntry>)
    ensures |kept| <= |rows|
    ensures forall i | 0 <= i < |kept| :: Complete(kept[i])
    ensures forall h | h in rows :: h in kept <==> Complete(h)
    ensures forall h | h in kept :: h in rows
  {
    if rows == [] then
      []
    else
      (if Complete(rows[0]) then [rows[0]] else []) + CaptureHistory(rows[1..])
  }

  /** Capturing distributes over concatenation, so the kept rows keep their
      relative order. */
  lemma {:induction false} CaptureAppend(a: seq<HistoryEntry>, b: seq<HistoryEntry>)
    ensures CaptureHistory(a + b) == CaptureHistory(a) + CaptureHistory(b)
    decreases |a|
  {
    if a != [] {
      var head := if Complete(a[0]) then [a[0]] else [];
      assert CaptureHistory(a + b) == head + CaptureHistory(a[1..] + b) by {
        assert (a + b)[0] == a[0] && (a + b)[1..] == a[1..] + b;
      }
      CaptureAppend(a[1..], b);
    } else {
      assert a + b == b;
    }
  }

  /** Rows that are all complete are saved unchanged. */
  lemma {:induction false} CaptureComplete(rows: seq<HistoryEntry>)
    requires forall i | 0 <= i < |rows| :: Complete(rows[i])
    ensures CaptureHistory(rows) == rows
    decreases |rows|
  {
    if rows != [] {
      CaptureComplete(rows[1..]);
    }
  }

  /** Capturing saved rows again changes nothing. */
  lemma CaptureIdempotent(rows: seq<HistoryEntry>)
    ensures CaptureHistory(CaptureHistory(rows)) == CaptureHistory(rows)
  {
    CaptureComplete(CaptureHistory(rows));
  }
}

=== FILE: repository.dfy ===
/** The two record lists and what the forms and buttons do to them.

    Each list is read, changed and written back whole. Saving a form with no id
    appends a new record under a fresh id; saving with an id spreads the form's
    fields over the first record with that id. Deleting keeps every record whose
    id differs. Marking an ongoing record complete pre-fills the completed form
    and, once confirmed, drops the record from the ongoing list; the completed
    list changes only when that form is saved. */
module Repository {
  import opened Wrappers
  import opened Numeric
  import opened Records

  /** The first position holding `id` (`findIndex`), None for -1. */
  function FindIndex<F>(data: seq<Rec<F>>, id: string): (r: Option<nat>)
    ensures r.Some? ==> r.value < |data| && data[r.value].id == id
    ensures r.Some? ==> forall j | 0 <= j < r.value :: data[j].id != id
    ensures r.None? <==> forall j | 0 <= j < |data| :: data[j].id != id
  {
    if data == [] then None
    else if data[0].id == id then Some(0)
    else match FindIndex(data[1..], id)
      case None => None
      case Some(i) => Some(i + 1)
  }

  predicate HasId<F>(data: seq<Rec<F>>, id: string) {
    exists i | 0 <= i < |data| :: data[i].id == id
  }

  predicate UniqueIds<F>(data: seq<Rec<F>>) {
    forall i, j | 0 <= i < j < |data| :: data[i].id != data[j].id
  }

  const OngoingPrefix: string := "ongo_"
  const CompletedPrefix: string := "comp_"

  /** A new id: the prefix followed by the decimal clock reading, which is
      passed in. */
  function NewId(prefix: string, now: nat): (id: string)
    ensures |id| > |prefix| && id[..|prefix|] == prefix
    ensures AllDigits(id[|prefix|..]) && DigitsValue(id[|prefix|..]) == now
  {
    prefix + NatToString(now)
  }

  /** Ids minted at different instants differ. */
  lemma NewIdsDiffer(prefix: string, t1: nat, t2: nat)
    requires t1 != t2
    ensures NewId(prefix, t1) != NewId(prefix, t2)
  {
    assert NewId(prefix, t1)[|prefix|..] == NatToString(t1);
    assert NewId(prefix, t2)[|prefix|..] == NatToString(t2);
    assert DigitsValue(NatToString(t1)) != DigitsValue(NatToString(t2));
  }

  /** A form save. With no id the form becomes a new record at the end under
      `newId`. With an id, the first record carrying it has its fields replaced
      by the form's and keeps its id. An id that matches nothing makes the
      program write to index -1 of the list, a property that `JSON.stringify`
      drops, so the stored list comes back unchanged. */
  function Upsert<F>(data: seq<Rec<F>>, formId: string, form: F, newId: string): (r: seq<Rec<F>>)
    ensures formId == [] ==> |r| == |data| + 1 && r[..|data|] == data && r[|data|] == Rec(newId, form)
    ensures formId != [] && !HasId(data, formId) ==> r == data
    ensures formId != [] && HasId(data, formId) ==>
              var i := FindIndex(data, formId).value;
              && |r| == |data|
              && r[i] == Rec(formId, form)
              && (forall j | 0 <= j < |data| && j != i :: r[j] == data[j])
  {
    if formId == [] then
      data + [Rec(newId, form)]
    else
      match FindIndex(data, formId)
      case None => data
      case Some(i) => data[i := Rec(data[i].id, form)]
  }

  /** Deleting by id: the records whose id differs, in their stored order. */
  function Remove<F>(data: seq<Rec<F>>, id: string): (r: seq<Rec<F>>)
    ensures |r| <= |data|
    ensures forall i | 0 <= i < |r| :: r[i].id != id
    ensures forall x | x in data :: x in r <==> x.id != id
    ensures forall x | x in r :: x in data
  {
    if data == [] then []
    else (if data[0].id != id then [data[0]] else []) + Remove(data[1..], id)
  }

  /** Filtering distributes over concatenation, so survivors keep their order. */
  lemma {:induction false} RemoveAppend<F>(a: seq<Rec<F>>, b: seq<Rec<F>>, id: string)
    ensures Remove(a + b, id) == Remove(a, id) + Remove(b, id)
    decreases |a|
  {
    if a == [] {
      assert a + b == b;
    } else {
      var head := if a[0].id != id then [a[0]] else [];
      assert Remove(a + b, id) == head + Remove(a[1..] + b, id) by {
        assert (a + b)[0] == a[0] && (a + b)[1..] == a[1..] + b;
      }
      RemoveAppend(a[1..], b, id);
    }
  }


  /** Deleting keeps unique ids unique: the survivors are a subsequence. */
  lemma {:induction false} RemoveKeepsIdsUnique<F>(data: seq<Rec<F>>, id: string)
    requires UniqueIds(data)
    ensures UniqueIds(Remove(data, id))
    decreases |data|
  {
    if data != [] {
      var rest := data[1..];
      assert UniqueIds(rest) by {
        assert forall i | 0 <= i < |rest| :: rest[i] == data[i + 1];
      }
      RemoveKeepsIdsUnique(rest, id);
      assert !HasId(Remove(rest, id), data[0].id) by {
        forall x | x in Remove(rest, id)
          ensures x.id != data[0].id
        {
          var k :| 0 <= k < |rest| && rest[k] == x;
          assert data[k + 1] == x;
        }
      }
    }
  }

  /** Deleting an id nobody has leaves the list as it was. */
  lemma {:induction false} RemoveAbsent<F>(data: seq<Rec<F>>, id: string)
    requires !HasId(data, id)
    ensures Remove(data, id) == data
    decreases |data|
  {
    if data != [] {
      assert data[0].id != id;
      assert forall i | 0 <= i < |data[1..]| :: data[1..][i] == data[i + 1];
      RemoveAbsent(data[1..], id);
    }
  }

  /** With unique ids, deleting a present id removes exactly the one record at
      its position. */
  lemma RemovePresent<F>(data: seq<Rec<F>>, id: string)
    requires UniqueIds(data) && HasId(data, id)
    ensures var i := FindIndex(data, id).value;
            Remove(data, id) == data[..i] + data[i + 1..]
  {
    var i := FindIndex(data, id).value;
    var before, after := data[..i], data[i + 1..];
    assert data == before + [data[i]] + after;
    assert !HasId(after, id) by {
      forall j | 0 <= j < |after|
        ensures after[j].id != id
      {
        assert after[j] == data[i + 1 + j];
      }
    }
    RemoveOnly(before, data[i], after, id);
  }

  /** Deleting the id of the one record that has it leaves the records around it. */
  lemma RemoveOnly<F>(before: seq<Rec<F>>, x: Rec<F>, after: seq<Rec<F>>, id: string)
    requires !HasId(before, id) && x.id == id && !HasId(after, id)
    ensures Remove(before + [x] + after, id) == before + after
  {
    assert Remove(before + [x], id) == before by {
      RemoveAbsent(before, id);
      assert Remove([x], id) == [] by {
        assert [x][1..] == [];
      }
      RemoveAppend(before, [x], id);
      assert before + [] == before;
    }
    assert Remove(after, id) == after by {
      RemoveAbsent(after, id);
    }
    RemoveAppend(before + [x], after, id);
  }

  /** Saving keeps ids unique provided a new record's id is not already taken. */
  lemma UpsertKeepsIdsUnique<F>(data: seq<Rec<F>>, formId: string, form: F, newId: string)
    requires UniqueIds(data)
    requires formId == [] ==> !HasId(data, newId)
    ensures UniqueIds(Upsert(data, formId, form, newId))
  {
    var r := Upsert(data, formId, form, newId);
    if formId == [] {
      forall i, j | 0 <= i < j < |r|
        ensures r[i].id != r[j].id
      {
        if j == |data| {
          assert r[i] == data[i];
        } else {
          assert r[i] == data[i] && r[j] == data[j];
        }
      }
    }
  }

  // ---------------------------------------------------------------------------
  // The store

  /** The three free-text boxes saved with the report. */
  datatype ReportNotes = ReportNotes(trendsNoticed: string, resourceChallenges: string, suggestedImprovements: string)

  /** The saved report week; an unset end is the empty text. */
  datatype DateRange = DateRange(start: string, end: string)

  /** The four storage keys. A missing list key reads as the empty list. */
  datatype Store = Store(
    completed: seq<Completed>,
    ongoing: seq<Ongoing>,
    notes: Option<ReportNotes>,
    dateRange: Option<DateRange>)

  /** Submitting the ongoing form at clock reading `now`: a form save on the
      ongoing list, under an `ongo_` id when the form is new. */
  function SubmitOngoing(st: Store, formId: string, form: OngoingFields, now: nat): (r: Store)
    ensures r.completed == st.completed && r.notes == st.notes && r.dateRange == st.dateRange
    ensures r.ongoing == Upsert(st.ongoing, formId, form, NewId(OngoingPrefix, now))
    ensures formId == [] ==> r.ongoing == st.ongoing + [Rec(NewId(OngoingPrefix, now), form)]
    ensures formId != [] && !HasId(st.ongoing, formId) ==> r.ongoing == st.ongoing
    ensures formId != [] && HasId(st.ongoing, formId) ==>
              var i := FindIndex(st.ongoing, formId).value;
              && |r.ongoing| == |st.ongoing|
              && r.ongoing[i] == Rec(formId, form)
              && (forall j | 0 <= j < |st.ongoing| && j != i :: r.ongoing[j] == st.ongoing[j])
  {
    st.(ongoing := Upsert(st.ongoing, formId, form, NewId(OngoingPrefix, now)))
  }

  /** Submitting the completed form at clock reading `now`: only its complete
      history rows are kept, and they replace the record's history wholesale. */
  function SubmitCompleted(st: Store, formId: string, form: CompletedFields, now: nat): (r: Store)
    ensures r.ongoing == st.ongoing && r.notes == st.notes && r.dateRange == st.dateRange
    ensures r.completed == Upsert(st.completed, formId, form.(hoursHistory := CaptureHistory(form.hoursHistory)),
                                  NewId(CompletedPrefix, now))
    ensures formId == [] ==>
              && |r.completed| == |st.completed| + 1 && r.completed[..|st.completed|] == st.completed
              && r.completed[|st.completed|].id == NewId(CompletedPrefix, now)
              && r.completed[|st.completed|].fields == form.(hoursHistory := CaptureHistory(form.hoursHistory))
    ensures formId != [] && !HasId(st.completed, formId) ==> r.completed == st.completed
    ensures formId != [] && HasId(st.completed, formId) ==>
              var i := FindIndex(st.completed, formId).value;
              && |r.completed| == |st.completed|
              && r.completed[i].id == formId
              && r.completed[i].fields == form.(hoursHistory := CaptureHistory(form.hoursHistory))
              && (forall j | 0 <= j < |st.completed| && j != i :: r.completed[j] == st.completed[j])
    ensures forall i | 0 <= i < |r.completed| && r.completed[i] !in st.completed ::
              r.completed[i].fields.hoursHistory == CaptureHistory(form.hoursHistory)
  {
    var entry := form.(hoursHistory := CaptureHistory(form.hoursHistory));
    st.(completed := Upsert(st.completed, formId, entry, NewId(CompletedPrefix, now)))
  }

  /** The ongoing delete button: the ongoing list loses the records with the id. */
  function DeleteOngoing(st: Store, id: string): (r: Store)
    ensures r.completed == st.completed && r.notes == st.notes && r.dateRange == st.dateRange
    ensures r.ongoing == Remove(st.ongoing, id)
    ensures forall x | x in st.ongoing :: x in r.ongoing <==> x.id != id
    ensures forall x | x in r.ongoing :: x in st.ongoing
  {
    st.(ongoing := Remove(st.ongoing, id))
  }

  /** The completed delete button: the completed list loses the records with the id. */
  function DeleteCompleted(st: Store, id: string): (r: Store)
    ensures r.ongoing == st.ongoing && r.notes == st.notes && r.dateRange == st.dateRange
    ensures r.completed == Remove(st.completed, id)
    ensures forall x | x in st.completed :: x in r.completed <==> x.id != id
    ensures forall x | x in r.completed :: x in st.completed
  {
    st.(completed := Remove(st.completed, id))
  }

  /** Clearing all data removes the two lists and the notes; the saved date
      range stays. */
  function ClearAll(st: Store): (r: Store)
    ensures r.completed == [] && r.ongoing == [] && r.notes.None?
    ensures r.dateRange == st.dateRange
  {
    Store([], [], None, st.dateRange)
  }

  // ---------------------------------------------------------------------------
  // Ongoing -> completed

  datatype Promotion =
    | NotFound
      /** The store after the confirmation, the pre-filled completed form, and
          the form's edit id, which is cleared so that saving appends. */
    | Promoted(store: Store, draft: CompletedFields, draftId: string)

  /** Marking an ongoing record complete, followed by confirming. The completed
      form, in the state `form`, takes the record's site, project number, bid
      hours, notes, and its hours worked as actual hours; its date becomes
      `today` (the clock's `YYYY-MM-DD`), its history rows and its edit id are
      cleared, and its other fields keep whatever they held. Confirming filters
      the record out of the ongoing list read when the button was pressed. */
  function MarkAsComplete(st: Store, id: string, form: CompletedFields, today: string): (r: Promotion)
    ensures r.NotFound? <==> !HasId(st.ongoing, id)
    ensures r.Promoted? ==>
              var item := st.ongoing[FindIndex(st.ongoing, id).value].fields;
              && r.store == st.(ongoing := Remove(st.ongoing, id))
              && r.draftId == []
              && r.draft.actualHours == item.hoursWorked
              && r.draft.bidHours == item.bidHours
              && r.draft.siteName == item.siteName
              && r.draft.projectNumber == item.projectNumber
              && r.draft.notes == item.notes
              && r.draft.dateCompleted == today
              && r.draft.hoursHistory == []
              && r.draft.bidPrice == form.bidPrice
              && r.draft.discrepancies == form.discrepancies
              && r.draft.deficiencies == form.deficiencies
              && r.draft.reportSent == form.reportSent
  {
    match FindIndex(st.ongoing, id)
    case None => NotFound
    case Some(i) =>
      var item := st.ongoing[i].fields;
      var draft := form.(
        siteName := item.siteName,
        projectNumber := item.projectNumber,
        bidHours := item.bidHours,
        actualHours := item.hoursWorked,
        notes := item.notes,
        dateCompleted := today,
        hoursHistory := []);
      Promoted(st.(ongoing := Remove(st.ongoing, id)), draft, [])
  }

  /** The transition is two steps: confirming removes the ongoing record and
      leaves the completed list alone; only saving the form then appends the new
      completed record, with an empty history, under `comp_` and the clock
      reading; that id keeps the completed ids unique when no record has it yet. */
  lemma PromoteThenSave(st: Store, id: string, form: CompletedFields, today: string, now: nat)
    requires UniqueIds(st.ongoing) && HasId(st.ongoing, id)
    ensures var p := MarkAsComplete(st, id, form, today);
            && p.Promoted?
            && p.store.completed == st.completed
            && |p.store.ongoing| == |st.ongoing| - 1
            && !HasId(p.store.ongoing, id)
            && var saved := SubmitCompleted(p.store, p.draftId, p.draft, now);
               && saved.ongoing == p.store.ongoing
               && saved.completed == st.completed + [Rec(NewId(CompletedPrefix, now), p.draft)]
               && (UniqueIds(st.completed) && !HasId(st.completed, NewId(CompletedPrefix, now)) ==>
                     UniqueIds(saved.completed))
  {
    var p := MarkAsComplete(st, id, form, today);
    RemovePresent(st.ongoing, id);
    var saved := SubmitCompleted(p.store, p.draftId, p.draft, now);
    assert CaptureHistory(p.draft.hoursHistory) == [];
    assert p.draft.(hoursHistory := []) == p.draft;
    if UniqueIds(st.completed) && !HasId(st.completed, NewId(CompletedPrefix, now)) {
      UpsertKeepsIdsUnique(st.completed, [], p.draft, NewId(CompletedPrefix, now));
    }
  }
}

=== FILE: sorting.dfy ===
/** Stable sorting by an integer key.

    The tables order records with `Array.prototype.sort` and a comparator that
    subtracts two keys; that sort is stable, so the result is the ascending
    arrangement of the keys in which records with equal keys keep their stored
    order. A descending order is the ascending order of the negated key. The key
    may be partial: it need only be defined on the elements being sorted. */
module Sorting {

  ghost predicate KeysDefined<T>(s: seq<T>, key: T --> int) {
    forall x | x in s :: key.requires(x)
  }

  predicate Ascending<T>(s: seq<T>, key: T --> int)
    requires KeysDefined(s, key)
  {
    forall i, j | 0 <= i < j < |s| :: key(s[i]) <= key(s[j])
  }

  /** The elements whose key is `k`, in their order in `s`. */
  function WithKey<T>(s: seq<T>, key: T --> int, k: int): (r: seq<T>)
    requires KeysDefined(s, key)
    ensures |r| <= |s|
    ensures forall x | x in r :: x in s && key(x) == k
  {
    if s == [] then [] else (if key(s[0]) == k then [s[0]] else []) + WithKey(s[1..], key, k)
  }

  /** Places `x` before the first element whose key is not smaller, which keeps
      it ahead of the elements with its own key. */
  function Insert<T>(x: T, s: seq<T>, key: T --> int): (r: seq<T>)
    requires key.requires(x) && KeysDefined(s, key)
    ensures KeysDefined(r, key)
    ensures multiset(r) == multiset(s) + multiset{x}
  {
    if s == [] || key(x) <= key(s[0]) then
      [x] + s
    else
      var rest := Insert(x, s[1..], key);
      assert s == [s[0]] + s[1..];
      assert multiset(s) == multiset{s[0]} + multiset(s[1..]);
      assert forall y | y in rest :: y in multiset(rest);
      [s[0]] + rest
  }

  lemma {:induction false} InsertAscending<T>(x: T, s: seq<T>, key: T --> int)
    requires key.requires(x) && KeysDefined(s, key) && Ascending(s, key)
    ensures Ascending(Insert(x, s, key), key)
    decreases |s|
  {
    if s != [] && key(x) > key(s[0]) {
      var rest := Insert(x, s[1..], key);
      InsertAscending(x, s[1..], key);
      forall y | y in rest
        ensures key(s[0]) <= key(y)
      {
        assert y in multiset(rest);
        if y != x {
          assert y in multiset(s[1..]);
        }
      }
    }
  }

  lemma {:induction false} InsertWithKey<T>(x: T, s: seq<T>, key: T --> int, k: int)
    requires key.requires(x) && KeysDefined(s, key)
    ensures WithKey(Insert(x, s, key), key, k) == (if key(x) == k then [x] else []) + WithKey(s, key, k)
    decreases |s|
  {
    if s == [] || key(x) <= key(s[0]) {
      WithKeyCons(x, s, key, k);
    } else {
      var rest := Insert(x, s[1..], key);
      var w := WithKey(s[1..], key, k);
      var hx: seq<T> := if key(x) == k then [x] else [];
      var h0: seq<T> := if key(s[0]) == k then [s[0]] else [];
      assert Insert(x, s, key) == [s[0]] + rest;
      assert WithKey(rest, key, k) == hx + w by {
        InsertWithKey(x, s[1..], key, k);
      }
      assert WithKey([s[0]] + rest, key, k) == h0 + (hx + w) by {
        WithKeyCons(s[0], rest, key, k);
      }
      assert WithKey(s, key, k) == h0 + w;
      assert h0 + (hx + w) == hx + (h0 + w) by {
        assert hx == [] || h0 == [];
      }
    }
  }

  /** Insertion sort: the stable ascending order of `s` by `key`. */
  function SortBy<T>(s: seq<T>, key: T --> int): (r: seq<T>)
    requires KeysDefined(s, key)
    ensures KeysDefined(r, key)
    ensures multiset(r) == multiset(s)
    ensures Ascending(r, key)
    ensures forall k :: WithKey(r, key, k) == WithKey(s, key, k)
  {
    if s == [] then
      []
    else
      assert s == [s[0]] + s[1..];
      assert multiset(s) == multiset{s[0]} + multiset(s[1..]);
      var sorted := SortBy(s[1..], key);
      InsertAscending(s[0], sorted, key);
      forall k
        ensures WithKey(Insert(s[0], sorted, key), key, k) == WithKey(s, key, k)
      {
        InsertWithKey(s[0], sorted, key, k);
      }
      Insert(s[0], sorted, key)
  }

  lemma WithKeyCons<T>(x: T, s: seq<T>, key: T --> int, k: int)
    requires key.requires(x) && KeysDefined(s, key)
    ensures WithKey([x] + s, key, k) == (if key(x) == k then [x] else []) + WithKey(s, key, k)
  {
    assert ([x] + s)[1..] == s;
  }

  lemma {:induction false} WithKeyMember<T>(s: seq<T>, key: T --> int, x: T)
    requires KeysDefined(s, key) && x in s
    ensures x in WithKey(s, key, key(x))
    decreases |s|
  {
    if s[0] != x {
      WithKeyMember(s[1..], key, x);
    }
  }

  /** In an ascending sequence no element has a smaller key than the first. */
  lemma HeadIsLeast<T>(s: seq<T>, key: T --> int, x: T)
    requires KeysDefined(s, key) && Ascending(s, key) && x in s
    ensures key(s[0]) <= key(x)
  {
    var i :| 0 <= i < |s| && s[i] == x;
  }

  /** The first element of `a` has its key's group in `b` too, so it is in `b`. */
  lemma HeadInOther<T>(a: seq<T>, b: seq<T>, key: T --> int)
    requires KeysDefined(a, key) && KeysDefined(b, key) && a != []
    requires forall k :: WithKey(a, key, k) == WithKey(b, key, k)
    ensures a[0] in b
  {
    WithKeyMember(a, key, a[0]);
    assert a[0] in WithKey(b, key, key(a[0]));
  }

  /** The first element of a sequence heads the group of its own key. */
  lemma HeadsItsGroup<T>(s: seq<T>, key: T --> int)
    requires KeysDefined(s, key) && s != []
    ensures |WithKey(s, key, key(s[0]))| > 0 && WithKey(s, key, key(s[0]))[0] == s[0]
  {
    assert s == [s[0]] + s[1..];
    WithKeyCons(s[0], s[1..], key, key(s[0]));
  }

  lemma HeadsAgree<T>(a: seq<T>, b: seq<T>, key: T --> int)
    requires KeysDefined(a, key) && KeysDefined(b, key) && a != [] && b != []
    requires Ascending(a, key) && Ascending(b, key)
    requires forall k :: WithKey(a, key, k) == WithKey(b, key, k)
    ensures a[0] == b[0]
  {
    HeadInOther(a, b, key);
    HeadInOther(b, a, key);
    HeadIsLeast(b, key, a[0]);
    HeadIsLeast(a, key, b[0]);
    SameKeyHeads(a, b, key);
  }

  /** Two sequences with the same groups whose first elements share a key start
      with the same element. */
  lemma SameKeyHeads<T>(a: seq<T>, b: seq<T>, key: T --> int)
    requires KeysDefined(a, key) && KeysDefined(b, key) && a != [] && b != []
    requires key(a[0]) == key(b[0])
    requires forall k :: WithKey(a, key, k) == WithKey(b, key, k)
    ensures a[0] == b[0]
  {
    HeadsItsGroup(a, key);
    HeadsItsGroup(b, key);
    assert WithKey(a, key, key(a[0])) == WithKey(b, key, key(b[0]));
  }

  /** The stable order is unique: two ascending sequences that hold the same
      elements with each key, in the same relative order, are equal. So any
      ascending rearrangement that keeps equal keys in input order is `SortBy`. */
  lemma {:induction false} StableOrderUnique<T>(a: seq<T>, b: seq<T>, key: T --> int)
    requires KeysDefined(a, key) && KeysDefined(b, key)
    requires Ascending(a, key) && Ascending(b, key)
    requires forall k :: WithKey(a, key, k) == WithKey(b, key, k)
    ensures a == b
    decreases |a| + |b|
  {
    if a == [] && b == [] {
    } else if a == [] {
      WithKeyMember(b, key, b[0]);
    } else if b == [] {
      WithKeyMember(a, key, a[0]);
    } else {
      HeadsAgree(a, b, key);
      var x := a[0];
      assert a == [x] + a[1..] && b == [x] + b[1..];
      forall k
        ensures WithKey(a[1..], key, k) == WithKey(b[1..], key, k)
      {
        WithKeyCons(x, a[1..], key, k);
        WithKeyCons(x, b[1..], key, k);
        var h: seq<T> := if key(x) == k then [x] else [];
        assert h + WithKey(a[1..], key, k) == h + WithKey(b[1..], key, k);
        assert (h + WithKey(a[1..], key, k))[|h|..] == WithKey(a[1..], key, k);
        assert (h + WithKey(b[1..], key, k))[|h|..] == WithKey(b[1..], key, k);
      }
      StableOrderUnique(a[1..], b[1..], key);
    }
  }

  /** Hence `SortBy` is the one stable ascending arrangement of its input. */
  lemma SortByIsTheStableOrder<T>(s: seq<T>, r: seq<T>, key: T --> int)
    requires KeysDefined(s, key) && KeysDefined(r, key) && Ascending(r, key)
    requires forall k :: WithKey(r, key, k) == WithKey(s, key, k)
    ensures r == SortBy(s, key)
  {
    StableOrderUnique(r, SortBy(s, key), key);
  }
}

=== FILE: tables.dfy ===
/** What the two tables show: the order of their rows and the figures, texts and
    colour classes of each row.

    The completed table lists the newest completion first and the ongoing table
    the soonest estimated completion first; both sorts are stable and both weigh
    a missing date as the timestamp 0. Number printing (`toFixed`) is not part of
    this model: a row holds the exact figures it would print. */
module Tables {
  import opened Wrappers
  import opened Numeric
  import opened Dates
  import opened Records
  import opened Metrics
  import opened Sorting

  // ---------------------------------------------------------------------------
  // Row order

  /** The completed table's sort key: the completion timestamp, negated so that
      the ascending sort puts the newest first. */
  function NewestFirst(r: Completed): int
    requires DateInput(r.fields.dateCompleted)
  {
    -SortKey(r.fields.dateCompleted)
  }

  /** The ongoing table's sort key: the estimated completion timestamp. */
  function SoonestFirst(r: Ongoing): int
    requires DateInput(r.fields.estCompletion)
  {
    SortKey(r.fields.estCompletion)
  }

  predicate CompletedDates(data: seq<Completed>) {
    forall x | x in data :: DateInput(x.fields.dateCompleted)
  }

  predicate OngoingDates(data: seq<Ongoing>) {
    forall x | x in data :: DateInput(x.fields.estCompletion)
  }

  /** The completed records as the table lists them: the same records, the
      latest completion first, and records completed on the same day (or with
      no date) in their stored order. */
  function CompletedOrder(data: seq<Completed>): (r: seq<Completed>)
    requires CompletedDates(data)
    ensures multiset(r) == multiset(data)
    ensures CompletedDates(r)
    ensures forall i, j | 0 <= i < j < |r| ::
              SortKey(r[i].fields.dateCompleted) >= SortKey(r[j].fields.dateCompleted)
    ensures forall k :: WithKey(r, NewestFirst, k) == WithKey(data, NewestFirst, k)
  {
    var r := SortBy(data, NewestFirst);
    assert forall x | x in r :: x in multiset(data);
    r
  }

  /** The ongoing records as the table lists them: the same records, the
      earliest estimated completion first, ties in their stored order. */
  function OngoingOrder(data: seq<Ongoing>): (r: seq<Ongoing>)
    requires OngoingDates(data)
    ensures multiset(r) == multiset(data)
    ensures OngoingDates(r)
    ensures forall i, j | 0 <= i < j < |r| ::
              SortKey(r[i].fields.estCompletion) <= SortKey(r[j].fields.estCompletion)
    ensures forall k :: WithKey(r, SoonestFirst, k) == WithKey(data, SoonestFirst, k)
  {
    var r := SortBy(data, SoonestFirst);
    assert forall x | x in r :: x in multiset(data);
    r
  }

  /** In the completed table no dated record is listed above one completed on a
      later calendar day. */
  lemma NewestFirstByCalendar(data: seq<Completed>, i: nat, j: nat)
    requires CompletedDates(data) && i < j < |data|
    ensures var r := CompletedOrder(data);
            && |r| == |data|
            && (r[i].fields.dateCompleted != [] && r[j].fields.dateCompleted != [] ==>
                  !Before(IsoFields(r[i].fields.dateCompleted), IsoFields(r[j].fields.dateCompleted)))
  {
    var r := CompletedOrder(data);
    assert |r| == |data| by {
      assert |multiset(r)| == |multiset(data)|;
    }
    if r[i].fields.dateCompleted != [] && r[j].fields.dateCompleted != [] {
      SortKeyOrder(r[i].fields.dateCompleted, r[j].fields.dateCompleted);
    }
  }

  /** In the ongoing table no dated record is listed above one due on an earlier
      calendar day. */
  lemma SoonestFirstByCalendar(data: seq<Ongoing>, i: nat, j: nat)
    requires OngoingDates(data) && i < j < |data|
    ensures var r := OngoingOrder(data);
            && |r| == |data|
            && (r[i].fields.estCompletion != [] && r[j].fields.estCompletion != [] ==>
                  !Before(IsoFields(r[j].fields.estCompletion), IsoFields(r[i].fields.estCompletion)))
  {
    var r := OngoingOrder(data);
    assert |r| == |data| by {
      assert |multiset(r)| == |multiset(data)|;
    }
    if r[i].fields.estCompletion != [] && r[j].fields.estCompletion != [] {
      SortKeyOrder(r[j].fields.estCompletion, r[i].fields.estCompletion);
    }
  }

  /** The completed order is the only arrangement that is newest-first and keeps
      same-day records in stored order. */
  lemma CompletedOrderUnique(data: seq<Completed>, r: seq<Completed>)
    requires CompletedDates(data) && CompletedDates(r)
    requires forall i, j | 0 <= i < j < |r| ::
               SortKey(r[i].fields.dateCompleted) >= SortKey(r[j].fields.dateCompleted)
    requires forall k :: WithKey(r, NewestFirst, k) == WithKey(data, NewestFirst, k)
    ensures r == CompletedOrder(data)
  {
    SortByIsTheStableOrder(data, r, NewestFirst);
  }

  /** The ongoing order is the only arrangement that is soonest-first and keeps
      records due on the same day in stored order. */
  lemma OngoingOrderUnique(data: seq<Ongoing>, r: seq<Ongoing>)
    requires OngoingDates(data) && OngoingDates(r)
    requires forall i, j | 0 <= i < j < |r| ::
               SortKey(r[i].fields.estCompletion) <= SortKey(r[j].fields.estCompletion)
    requires forall k :: WithKey(r, SoonestFirst, k) == WithKey(data, SoonestFirst, k)
    ensures r == OngoingOrder(data)
  {
    SortByIsTheStableOrder(data, r, SoonestFirst);
  }

  // ---------------------------------------------------------------------------
  // Row contents

  function YesNo(b: bool): string {
    if b then "Yes" else "No"
  }

  /** Hours as a table cell shows them: the empty text is replaced by 0 before
      `parseFloat` reads it, so it shows as 0, and other text shows as what
      `parseFloat` reads from it, None standing for NaN. */
  function ShownHours(s: string): (r: Option<real>)
    ensures s == [] ==> r == Some(0.0)
    ensures s != [] ==> r == ParseFloat(s)
    ensures r.Some? ==> r.value == Coerce(s)
  {
    if s == [] then Some(0.0) else ParseFloat(s)
  }

  /** One line of a completed record's history table. */
  datatype HistoryLine = HistoryLine(
    year: string,
    bid: real,
    actual: real,
    percent: real,
    bidPrice: real,
    actualPrice: real,
    gainLoss: real,
    percentTone: Tone,
    gainLossTone: Tone)

  function HistoryLineOf(h: HistoryEntry): (l: HistoryLine)
    ensures l.year == h.year
    ensures l.bid == Coerce(h.bid) && l.actual == Coerce(h.actual) && l.bidPrice == Coerce(h.bidPrice)
    ensures l.actualPrice == l.actual * HourlyRate && l.gainLoss + l.actualPrice == l.bidPrice
    ensures l.percent == PercentFraction(l.bid, l.actual) * 100.0
    ensures l.percentTone == Danger <==> l.percent > 0.0
    ensures l.percentTone != Plain && l.gainLossTone != Plain
    ensures l.gainLossTone == Success <==> l.gainLoss >= 0.0
  {
    var bid := Coerce(h.bid);
    var actual := Coerce(h.actual);
    var bidPrice := Coerce(h.bidPrice);
    var percent := PercentFraction(bid, actual) * 100.0;
    HistoryLine(h.year, bid, actual, percent, bidPrice, ActualPrice(actual), GainLoss(bidPrice, actual),
                HistoryPercentTone(bid, actual), HistoryGainLossTone(bidPrice, actual))
  }

  /** The history table of a record, in its saved order; an empty history shows
      a line of text instead of a table. */
  function HistoryLines(hs: seq<HistoryEntry>): (ls: seq<HistoryLine>)
    ensures |ls| == |hs|
    ensures forall i | 0 <= i < |hs| :: ls[i] == HistoryLineOf(hs[i])
  {
    if hs == [] then [] else [HistoryLineOf(hs[0])] + HistoryLines(hs[1..])
  }

  /** The cells of a completed row. */
  datatype CompletedRow = CompletedRow(
    siteName: string,
    projectNumber: string,
    date: string,
    bid: Option<real>,
    actual: Option<real>,
    diffPercent: Option<real>,
    bidPrice: real,
    actualPrice: real,
    gainLoss: real,
    gainLossTone: Tone,
    discrepancies: string,
    deficiencies: string,
    notes: string,
    reportSent: string,
    history: seq<HistoryLine>)

  function CompletedRowOf(x: Completed): (row: CompletedRow)
    requires DateInput(x.fields.dateCompleted)
    ensures row.siteName == x.fields.siteName && row.projectNumber == x.fields.projectNumber
    ensures row.date == FormatDate(ParseLocalDate(x.fields.dateCompleted))
    ensures row.date == [] <==> x.fields.dateCompleted == []
    ensures row.bid == ShownHours(x.fields.bidHours) && row.actual == ShownHours(x.fields.actualHours)
    ensures row.bidPrice == Coerce(x.fields.bidPrice)
    ensures row.gainLoss + row.actualPrice == row.bidPrice
    ensures row.actualPrice == Coerce(x.fields.actualHours) * HourlyRate
    ensures row.gainLossTone == Plain <==> Coerce(x.fields.actualHours) == Coerce(x.fields.bidHours)
    ensures row.gainLossTone == Success <==> row.gainLoss > 0.0 && row.gainLossTone != Plain
    ensures x.fields.bidHours == [] ==> row.diffPercent == Some(0.0)
    ensures row.diffPercent == CurrentPercent(x.fields.bidHours, Coerce(x.fields.actualHours), Coerce(x.fields.bidHours))
    ensures row.history == HistoryLines(x.fields.hoursHistory)
    ensures row.discrepancies == OrElse(x.fields.discrepancies, "None")
    ensures row.deficiencies == OrElse(x.fields.deficiencies, "None")
    ensures row.notes == OrElse(x.fields.notes, "None")
    ensures row.reportSent == (if x.fields.reportSent then "Yes" else "No")
  {
    var f := x.fields;
    var actual := Coerce(f.actualHours);
    var bid := Coerce(f.bidHours);
    var bidPrice := Coerce(f.bidPrice);
    var d := ParseLocalDate(f.dateCompleted);
    CompletedRow(
      f.siteName,
      f.projectNumber,
      FormatDate(d),
      ShownHours(f.bidHours),
      ShownHours(f.actualHours),
      CurrentPercent(x.fields.bidHours, Coerce(x.fields.actualHours), Coerce(x.fields.bidHours)),
      bidPrice,
      ActualPrice(actual),
      GainLoss(bidPrice, actual),
      CurrentGainLossTone(bid, actual, bidPrice),
      OrElse(f.discrepancies, "None"),
      OrElse(f.deficiencies, "None"),
      OrElse(f.notes, "None"),
      YesNo(f.reportSent),
      HistoryLines(f.hoursHistory))
  }

  /** Whatever the bid text, a completed row's money figures are the ones a
      history line of the same three inputs shows. */
  lemma CurrentRowPricesMatchHistory(x: Completed, year: string)
    requires DateInput(x.fields.dateCompleted)
    ensures var row := CompletedRowOf(x);
            var line := HistoryLineOf(HistoryEntry(year, x.fields.bidHours, x.fields.actualHours, x.fields.bidPrice));
            && row.bidPrice == line.bidPrice
            && row.actualPrice == line.actualPrice
            && row.gainLoss == line.gainLoss
  {
    var h := HistoryEntry(year, x.fields.bidHours, x.fields.actualHours, x.fields.bidPrice);
    assert h.bidPrice == x.fields.bidPrice && h.actual == x.fields.actualHours;
  }

  /** The cells of an ongoing row; the notes line appears only when there are
      notes. */
  datatype OngoingRow = OngoingRow(
    siteName: string,
    notes: Option<string>,
    projectNumber: string,
    bid: Option<real>,
    worked: Option<real>,
    workedTone: Tone,
    estCompletion: string)

  function OngoingRowOf(x: Ongoing): (row: OngoingRow)
    requires DateInput(x.fields.estCompletion)
    ensures row.siteName == x.fields.siteName && row.projectNumber == x.fields.projectNumber
    ensures row.notes.Some? <==> x.fields.notes != []
    ensures row.notes.Some? ==> row.notes.value == x.fields.notes
    ensures row.bid == ShownHours(x.fields.bidHours) && row.worked == ShownHours(x.fields.hoursWorked)
    ensures row.estCompletion == FormatDate(ParseLocalDate(x.fields.estCompletion))
    ensures row.workedTone == Danger <==> Coerce(x.fields.hoursWorked) > Coerce(x.fields.bidHours)
    ensures row.workedTone != Success
    ensures row.estCompletion == [] <==> x.fields.estCompletion == []
  {
    var f := x.fields;
    OngoingRow(
      f.siteName,
      if f.notes == [] then None else Some(f.notes),
      f.projectNumber,
      ShownHours(f.bidHours),
      ShownHours(f.hoursWorked),
      OngoingHoursTone(Coerce(f.bidHours), Coerce(f.hoursWorked)),
      FormatDate(ParseLocalDate(f.estCompletion)))
  }
}

=== FILE: wrappers.dfy ===
/** Optional values: the model's stand-in for JavaScript's `null`, `undefined`
    and `NaN` results. */
module Wrappers {

  datatype Option<T> = None | Some(value: T) {

    /** The wrapped value, or `default` when there is none (JavaScript's `x || default`
        for a value whose only falsy form is the missing one). */
    function GetOr(default: T): T {
      match this
      case Some(v) => v
      case None => default
    }
  }

  /** JavaScript's `text || fallback`: the empty text is the only falsy string,
      so it alone is replaced. */
  function OrElse(text: string, fallback: string): (r: string)
    ensures text != [] ==> r == text
    ensures text == [] ==> r == fallback
    ensures r == [] <==> text == [] && fallback == []
  {
    if text == [] then fallback else text
  }
}
